=== FILE: README.md ===
# EGP-Converter core, modelled in Dafny

EGP-Converter fetches historical exchange rates from a rates API and repairs the raw
Python-flavoured JSON it receives. It then stores the rows in an IBM Db2 table, and converts
amounts between EUR, EGP, USD and DZD with EUR as the pivot. Most of the repository is glue
around an HTTP client, pandas and the Db2 driver. This project models the sequential logic
underneath that glue, one Dafny module per source file:

| module | source file | what it holds |
|---|---|---|
| `ConversionUtils` | `EGP-Converter-Feat-Backend/app/utils/conversion_utils.py` | the two-digit date-component formatter and Python's `str()` on integers |
| `ApiDataUtils` | `EGP-Converter-Feat-Backend/app/utils/api_data_utils.py` | the per-date request URL and the month, year and day-range fetch loops |
| `CurrencyService` | `EGP-Converter-Feat-Backend/app/services/currency_service.py` | the rate lookup and the three EUR-pivot conversions |
| `Transform` | `app/etl/transform.py` | line splitting, the quote/`True` repair, the per-item JSON parse loop, the column projection |
| `Db2Utils` | `EGP-Converter-Feat-Backend/app/utils/db2_utils.py` | the connection string, INSERT/SELECT texts, parameter binding and the row-draining loop |

Two shared modules support them. `Wrappers` holds `Option` and `Result`. `Python` holds the
dynamic `Value` type, Python truthiness, and the exception classes the code raises. A raised
exception is a `Failure` carrying a `PyException`. A re-raise `raise RuntimeError(...) from e`
becomes `RuntimeError(cause)`.

The external calls are parameters:

- `http: string -> Option<Value>` stands for `requests.get` + `raise_for_status` + `response.json`. It returns `None` for any failure that the source turns into `None`. A body that decodes to JSON `null` is `Some(VNone)`. `GetApiDataForDate` returns Python's `None` (`VNone`) for both, as the source does.
- `parse: string -> Option<Value>` stands for `json.loads`. It returns `None` where the source gets a `JSONDecodeError`.
- `execute: string -> seq<Value>` stands for the results `ibm_db.fetch_assoc` hands out for a statement.

The rate table is the sequence of its rows, in the order the database returns them; the query
has no `ORDER BY`. The lookup's `WHERE` clause keeps the matching rows in that order, and the
first of them is used. `KeyedLookup` shows that on a table with one row
per date and code, this is a plain map read. Python floats are modelled as `real`.

The fetch loops, the list-parse loop, the bind loop and the row-draining loop are methods with
loops, as in the source. `Statement` (bound parameters) and `Cursor` (pending results) are
classes whose methods update their fields in place. The rest are functions.

Where the code and its own docstrings disagree, the model follows the code:

- The docstring of `_parse_and_fix_json_string` (`app/etl/transform.py:51-53`) promises a `ValueError` for None and a `TypeError` for a non-string. The code raises both inside its `try`, and the catch-all handler re-raises them as `RuntimeError`.
- The docstring of `_reformat_list_of_json_strings` (`app/etl/transform.py:84-85`) promises None in place of an item that cannot be read. A None or non-string item instead aborts the whole call (see Findings).

When several rows match a rate lookup, the first one the database returns is used. The source does not check for duplicates.

## Model

| member | source | states |
|---|---|---|
| ConversionUtils.NatToStringCorrect | EGP-Converter-Feat-Backend/app/utils/conversion_utils.py:34 | `str(n)` is non-empty, all digits, reads back as `n`, has no leading zero from 10 on, and has one digit exactly below 10 and two exactly in 10..99 |
| ConversionUtils.FormatDateComponent | EGP-Converter-Feat-Backend/app/utils/conversion_utils.py:22-27 | fails exactly below 1, with the zero error for 0 and the negative error below 0 |
| ConversionUtils.FormatDateComponentDigits | EGP-Converter-Feat-Backend/app/utils/conversion_utils.py:34 | from 1 on, the result is digits that read back as the input, at least two of them: `"0"`+digit for 1..9, plain `str()` with no leading zero from 10 on |
| ConversionUtils.TwoDigitRoundTrip | EGP-Converter-Feat-Backend/app/utils/conversion_utils.py:34 | every value 1..99 gives exactly two digit characters that read back as the value |
| ConversionUtils.CalendarComponentsFormat | EGP-Converter-Feat-Backend/app/utils/conversion_utils.py:23-34 | months 1..12 and days 1..31 never fail and always give two characters |
| ConversionUtils.DocumentedExamples | EGP-Converter-Feat-Backend/app/utils/conversion_utils.py:4-5 | 3 gives "03" and 12 gives "12" |
| ApiDataUtils.DateSegment | EGP-Converter-Feat-Backend/app/utils/api_data_utils.py:92-96 | fails exactly when the month or the day is below 1; the month is padded first, so a bad month's error is the one reported |
| ApiDataUtils.DateSegmentRoundTrip | EGP-Converter-Feat-Backend/app/utils/api_data_utils.py:92-96 | for months and days 1..99 the segment is year digits, `-`, two month digits, `-`, two day digits, each reading back as its input |
| ApiDataUtils.DateUrl | EGP-Converter-Feat-Backend/app/utils/api_data_utils.py:92-96 | fails exactly on a bad month or day |
| ApiDataUtils.DateUrlLayout | EGP-Converter-Feat-Backend/app/utils/api_data_utils.py:96 | for a valid month and day, the URL reads, by position, as the base URL and the date segment, then `?access_key=` and the key, then the fixed `&symbols=EGP,USD,EUR,DZD&format=1` |
| ApiDataUtils.GetApiDataForDate | EGP-Converter-Feat-Backend/app/utils/api_data_utils.py:91-142 | raises a ValueError exactly when the month or day is below 1 (the padding is outside the `try`), the month's zero/negative error first, then the day's; otherwise returns the decoded body for the date's URL, and never raises; the result is None exactly when the request failed or the body is JSON `null` |
| ApiDataUtils.ConsecutiveValues | EGP-Converter-Feat-Backend/app/utils/api_data_utils.py:184 | the request trace `Consecutive(lo, n)` is the `n` values `lo, lo + 1, …` in order, as `range` walks them |
| ApiDataUtils.HoldsDaysStep | EGP-Converter-Feat-Backend/app/utils/api_data_utils.py:184-188 | one more day's request keeps "the map holds exactly the non-None responses of the days so far" |
| ApiDataUtils.FetchForMonth | EGP-Converter-Feat-Backend/app/utils/api_data_utils.py:181-192 | requests days 1..31 in increasing order (the ghost `days` trace the loop records as it requests is `Consecutive(1, 31)`); day d is a key exactly when its response is not None (a failed request or a `null` body), holding that response; a month below 1 raises the padding error before any request |
| ApiDataUtils.HoldsMonthsStep | EGP-Converter-Feat-Backend/app/utils/api_data_utils.py:212-217 | one more month's request keeps "the map holds exactly the non-None day-1 responses of the months so far" |
| ApiDataUtils.FetchForYear | EGP-Converter-Feat-Backend/app/utils/api_data_utils.py:211-221 | requests day 1 of months 1..12 in increasing order (the ghost `months` trace is `Consecutive(1, 12)`); month m is a key exactly when its response is not None (a failed request or a `null` body), holding that response; never raises |
| ApiDataUtils.FetchForTimeSeries | EGP-Converter-Feat-Backend/app/utils/api_data_utils.py:241-257 | an invalid day range gives an empty map with no request; a month below 1 raises the padding error for that month; otherwise requests start..end in order (the ghost `days` trace is `Consecutive(start, end - start + 1)`) and keeps exactly the days whose response is not None (a failed request or a `null` body) |
| CurrencyService.RateQuery | EGP-Converter-Feat-Backend/app/services/currency_service.py:23 | when the table, date and code hold no `'`, splitting the query on `'` gives the text before the date, the date, the text before the code, the code, and nothing after, so the quoted literals are exactly the date and the code |
| CurrencyService.MatchingRows | EGP-Converter-Feat-Backend/app/services/currency_service.py:23-25 | the query's rows all match both the date and the code, and there are none exactly when no row of the table matches |
| CurrencyService.FirstMatchingRow | EGP-Converter-Feat-Backend/app/services/currency_service.py:32 | the first row of the query result is the earliest matching row of the table |
| CurrencyService.GetExchangeRate | EGP-Converter-Feat-Backend/app/services/currency_service.py:22-32 | raises ExchangeRateNotFoundError for this date and code exactly when no row matches both; otherwise returns the rate of a matching row |
| CurrencyService.RateIsFirstMatch | EGP-Converter-Feat-Backend/app/services/currency_service.py:32 | with several matching rows, the earliest one's rate is returned |
| CurrencyService.KeyedLookup | EGP-Converter-Feat-Backend/app/services/currency_service.py:23-32 | on a table keyed by (date, code), the lookup returns that row's rate |
| CurrencyService.ConvertEurToCurrency | EGP-Converter-Feat-Backend/app/services/currency_service.py:51-52 | fails exactly when the lookup does, with its error; otherwise `rate * amount` |
| CurrencyService.ConvertCurrencyToEur | EGP-Converter-Feat-Backend/app/services/currency_service.py:72-77 | a missing rate is reported before a zero rate; a zero rate raises ValueError; it succeeds exactly when the rate is present and non-zero, with `amount / rate` |
| CurrencyService.ConvertBetweenNonEurCurrencies | EGP-Converter-Feat-Backend/app/services/currency_service.py:96-109 | EUR on either side raises ValueError; then a missing base rate, then a missing target rate, then a zero base rate; it succeeds exactly when both codes are not EUR, both rates are present and the base rate is non-zero, with `(amount / base) * target` |
| CurrencyService.EurRefusedWithoutLookup | EGP-Converter-Feat-Backend/app/services/currency_service.py:96-97 | the EUR refusal gives the same outcome on any two tables, so no lookup precedes it |
| CurrencyService.EurRoundTrip | EGP-Converter-Feat-Backend/app/services/currency_service.py:51-77 | with a non-zero rate, EUR to a currency and back returns the original amount |
| CurrencyService.CrossIsPivotThroughEur | EGP-Converter-Feat-Backend/app/services/currency_service.py:100-109 | a successful cross conversion equals converting the base to EUR, then EUR to the target |
| CurrencyService.CrossRoundTrip | EGP-Converter-Feat-Backend/app/services/currency_service.py:96-109 | with both rates non-zero, base to target and back returns the original amount |
| Transform.LineEnd | app/etl/transform.py:31 | the first line break's index (or the length): no break before it, a break at it |
| Transform.SplitLines | app/etl/transform.py:31 | no lines exactly for the empty text; text without a break is one line |
| Transform.SplitLinesHaveNoBreaks | app/etl/transform.py:31 | no line from `splitlines` contains any of its line-break characters |
| Transform.SplitFirstLine | app/etl/transform.py:31 | a break-free line followed by any one-character line break other than `\r` is split off as the first line |
| Transform.SplitFirstLineCrLf | app/etl/transform.py:31 | `\r\n` is one break: a break-free line followed by `\r\n` is split off as the first line, with no empty line between |
| Transform.SplitFirstLineCr | app/etl/transform.py:31 | a `\r` not followed by `\n` is a break on its own |
| Transform.SplitTerminatedRoundTrip | app/etl/transform.py:31 | splitting break-free lines written one per `\n`-terminated line gives the lines back |
| Transform.SplitStringIntoLines | app/etl/transform.py:22-34 | anything but a string (None included) fails with RuntimeError wrapping TypeError; a string gives exactly its `SplitLines` lines, none holding a break |
| Transform.ReplaceQuotes | app/etl/transform.py:65 | same length; each `'` becomes `"` and every other character is kept |
| Transform.ReplaceTrue | app/etl/transform.py:65 | same length; a character becomes `t` exactly where a `True` starts, and every other character is kept |
| Transform.ReplaceTrueLeavesNoTrue | app/etl/transform.py:65 | no `True` is left after the replacement, including one formed across a replaced word |
| Transform.ReplaceTrueIdentity | app/etl/transform.py:65 | text without `True` is unchanged |
| Transform.Repair | app/etl/transform.py:65 | same length; `t` where a `True` starts, `"` where a `'` was, every other character kept; no `'` and no `True` is left |
| Transform.RepairIdempotent | app/etl/transform.py:65 | repairing twice is the same as repairing once |
| Transform.RepairOneEntry | app/etl/transform.py:63-65 | a one-entry dict text `{'key': True}` is repaired to `{"key": true}` when the key holds no `'` and no `T` |
| Transform.ParseAndFix | app/etl/transform.py:56-73 | None gives RuntimeError wrapping ValueError and a non-string gives RuntimeError wrapping TypeError; a string succeeds exactly when its repair parses, with that value, and otherwise raises ValueError |
| Transform.ReformatItemsShape | app/etl/transform.py:97-109 | the loop succeeds exactly when no item's exception escapes; then one output per item in order, None where ValueError/TypeError was caught; otherwise the first escaping exception |
| Transform.ReformatFailureStops | app/etl/transform.py:99-109 | once an exception escapes on a prefix, the whole loop ends with it |
| Transform.ReformatListOfJsonStrings | app/etl/transform.py:90-109 | a non-list raises TypeError; a list gives exactly the item-by-item outcome described by `ReformatItemsShape` |
| Transform.NonStringItemAbortsList | app/etl/transform.py:56-109 | as written, one None or non-string item makes the whole list call fail with RuntimeError |
| Transform.ParseAndFixIntended | app/etl/transform.py:51-53 | None raises ValueError and a non-string TypeError, both caught by the list loop; strings behave as in `ParseAndFix` |
| Transform.ReformatIntendedTotal | app/etl/transform.py:83-85 | with the intended parse, the list call never fails and gives the parsed value or None per item, in order |
| Transform.PrepareDataColumns | app/etl/transform.py:157-171 | None fails with RuntimeError wrapping TypeError; KeyError exactly when `date`, `base` or `rates` is missing, success exactly when all three are present, with exactly those columns, in that order, for every row, values unchanged |
| Transform.PrepareDataColumnsIdempotent | app/etl/transform.py:165 | projecting an already projected table changes nothing |
| Db2Utils.IndexOf | EGP-Converter-Feat-Backend/app/utils/db2_utils.py:20-28 | a helper for reading the connection string back: the first index of the separator (or the length), none before it, one at it |
| Db2Utils.SplitJoin | EGP-Converter-Feat-Backend/app/utils/db2_utils.py:20-28 | a helper for reading the connection string back: splitting on a one-character separator undoes a join whose parts lack it |
| Db2Utils.ConnectionString | EGP-Converter-Feat-Backend/app/utils/db2_utils.py:20-28 | when no setting holds a `;`, splitting the string on `;` gives back exactly the seven settings in order |
| Db2Utils.ConnectionStringLayout | EGP-Converter-Feat-Backend/app/utils/db2_utils.py:20-28 | the connection string splits on `;` into exactly DATABASE, HOSTNAME, PORT, `SECURITY=SSL`, SSLServerCertificate, UID, PWD, in order |
| Db2Utils.SplitCommaJoin | EGP-Converter-Feat-Backend/app/utils/db2_utils.py:53 | a `", "`-join split on `,` gives the parts back, each after the first behind one space |
| Db2Utils.ColumnListLayout | EGP-Converter-Feat-Backend/app/utils/db2_utils.py:53 | a `", "`-joined column list (as `InsertSqlLayout` places in the INSERT) splits back into the column names in the given order |
| Db2Utils.Placeholders | EGP-Converter-Feat-Backend/app/utils/db2_utils.py:56 | `["?"] * n`: n entries, each `?` |
| Db2Utils.PlaceholderCount | EGP-Converter-Feat-Backend/app/utils/db2_utils.py:56 | the placeholder list holds exactly n question marks |
| Db2Utils.InsertSql | EGP-Converter-Feat-Backend/app/utils/db2_utils.py:53-60 | when the table and column names hold no `?`, the INSERT text holds exactly one `?` per value, whatever the number of columns |
| Db2Utils.InsertSqlLayout | EGP-Converter-Feat-Backend/app/utils/db2_utils.py:53-60 | the INSERT text is `INSERT INTO <table> (<column list>) VALUES (<placeholder list>)`; the column list splits on `,` back into the column names in order when none holds a `,`, and the placeholder list into `n` question marks |
| Db2Utils.Statement.Prepare | EGP-Converter-Feat-Backend/app/utils/db2_utils.py:62 | a prepared statement keeps its text and has nothing bound |
| Db2Utils.Statement.BindParam | EGP-Converter-Feat-Backend/app/utils/db2_utils.py:69 | binds the value to the position and leaves the other bindings unchanged |
| Db2Utils.InsertToDb | EGP-Converter-Feat-Backend/app/utils/db2_utils.py:53-69 | the statement's text is the INSERT for the data's length; positions 1..len(data) are bound and no other, `data[i]` at `i + 1` |
| Db2Utils.SelectAllSql | EGP-Converter-Feat-Backend/app/utils/db2_utils.py:92 | the text is `SELECT * FROM ` followed by the table name and nothing else |
| Db2Utils.Cursor.constructor | EGP-Converter-Feat-Backend/app/utils/db2_utils.py:125 | an executed statement has all its results pending |
| Db2Utils.Cursor.FetchAssoc | EGP-Converter-Feat-Backend/app/utils/db2_utils.py:129 | hands out the next result and drops it, or `False` once nothing is left |
| Db2Utils.TakeWhileTruthyIsTruthyPrefix | EGP-Converter-Feat-Backend/app/utils/db2_utils.py:131-133 | the rows kept are the unique truthy prefix that is everything or stops right before a falsy row |
| Db2Utils.RunSqlQuery | EGP-Converter-Feat-Backend/app/utils/db2_utils.py:123-137 | the result is the fetched rows in order up to, and not including, the first falsy one, all truthy |
| Db2Utils.GetAllFromDb | EGP-Converter-Feat-Backend/app/utils/db2_utils.py:92-108 | the same draining of the results of `SELECT * FROM <table>` |

## Left out

- The network: `requests.get`, `raise_for_status`, `response.json` and their exception handlers are the `http` parameter. A response, or None for any failure, is all the model sees. The 4-second `time.sleep` after each request is not modelled.
- `_get_api_latest_data` and `_fetch_currency_data` are not modelled separately. The latter is a plain call of `_get_api_data_for_date` and is folded into `GetApiDataForDate`.
- The Db2 driver: `ibm_db.connect`, `execute`, `commit` and `free_stmt` have no modelled effect, and a failed connection is not modelled. The connection is dropped from every signature. `_connect_to_database` is modelled only as its connection-string text.
- CurrencyService.GetExchangeRate: the lookup is modelled as a row filter, not as the execution of the `CurrencyService.RateQuery` text. What a quote inside the date or the code does to the query (SQL injection) is not modelled.
- CurrencyService.GetExchangeRate: `float(None)` on a NULL `EXCHANGE_RATE` is not modelled; every row carries a real rate.
- `json.loads` and pandas are abstract. `_load_json_into_df` is not modelled. A DataFrame is its column list and its rows as column-to-value maps.
- Floating point: amounts and rates are `real`. Rounding, overflow, NaN and infinities are not modelled.
- ConversionUtils.FormatDateComponent: the source's TypeError path for a non-integer argument is not modelled, because the model's argument is an `int`.
- Configuration loading (`app/core/config.py`) is out of scope: the base URL, access key and Db2 settings are parameters. The module-level and per-call `print`s are out of scope too.
- Two loops check a bad month before they start: ApiDataUtils.FetchForMonth and ApiDataUtils.FetchForTimeSeries. The source raises in the first iteration instead; both give the same result with no request issued.
- Db2Utils.GetAllFromDb: the source repeats the draining loop of `_run_sql_query`; the model calls `RunSqlQuery` with the SELECT text instead.
- The export, load and ETL wrappers, the Airflow DAG, the pydantic schema and the React frontend are not part of this model. They are orchestration, I/O or UI; this includes the month range check in `app/etl/export.py`.

## Findings

| source | as written | input that shows it | evidently intended | confidence | as-written member | corrected member |
|---|---|---|---|---|---|---|
| app/etl/transform.py:104 | `_parse_and_fix_json_string` re-raises its None and non-string errors as `RuntimeError` (lines 58-61, 71-73), which the list loop's `except (ValueError, TypeError)` does not catch, so the whole call fails | the list `[None]` | the item becomes None in the output, as the list function's documentation says (lines 84-85) and as the parse's documentation promises ValueError/TypeError (lines 52-53) | medium, not executed | Transform.NonStringItemAbortsList | Transform.ReformatIntendedTotal |

=== FILE: api_data_utils.dfy ===
/**
 * Model of `app/utils/api_data_utils.py`: the historical-rate URL for one date and the
 * batch fetches that collect one response per day (or per month) into a dictionary.
 *
 * The HTTP exchange (`requests.get`, `raise_for_status`, `response.json`) is the oracle
 * `http`: it maps a URL to the decoded body, or to `None` for any network, status, timeout
 * or decoding failure, which the source turns into `None` without raising. A body that
 * decodes to JSON `null` is Python's `None` as well, so the loops' `is not None` tests treat
 * it like a failed request.
 *
 * Because `http` is a pure function, the order of the requests cannot be observed through
 * it. The fetch loops therefore also return a ghost trace (`days` or `months`): the date each
 * iteration requests, recorded by the loop itself as it issues the request.
 */
module ApiDataUtils {
  import opened Wrappers
  import opened Python
  import opened ConversionUtils

  /** The API base URL and access key read from the configuration. */
  datatype ApiConfig = ApiConfig(baseUrl: string, accessKey: string)

  /** The currency symbols every historical request asks for. */
  const Symbols: string := "EGP,USD,EUR,DZD"

  /** `year-MM-DD`; the month is padded before the day, so a bad month is the one reported. */
  function DateSegment(year: int, month: int, day: int): (r: Result<string, PyException>)
    ensures r.Failure? <==> month < 1 || day < 1
    ensures month < 1 ==> r == Failure(FormatDateComponent(month).error)
    ensures 1 <= month && day < 1 ==> r == Failure(FormatDateComponent(day).error)
  {
    match FormatDateComponent(month)
    case Failure(e) => Failure(e)
    case Success(mm) =>
      match FormatDateComponent(day)
      case Failure(e) => Failure(e)
      case Success(dd) => Success(IntToString(year) + "-" + mm + "-" + dd)
  }

  /** The query string that follows the access key. */
  const QueryTail: string := "&symbols=" + Symbols + "&format=1"

  /**
   * The request URL of `_get_api_data_for_date`: the base URL, the date segment, the access
   * key, and the fixed symbol list. It fails exactly where the date segment does.
   */
  function DateUrl(cfg: ApiConfig, year: int, month: int, day: int): (r: Result<string, PyException>)
    ensures r.Failure? <==> month < 1 || day < 1
  {
    match DateSegment(year, month, day)
    case Failure(e) => Failure(e)
    case Success(seg) => Success(cfg.baseUrl + seg + "?access_key=" + cfg.accessKey + QueryTail)
  }

  /**
   * A date's URL is the base URL and the date segment, then `?access_key=` and the key, then
   * the fixed query tail, each read back by position.
   */
  lemma DateUrlLayout(cfg: ApiConfig, year: int, month: int, day: int)
    requires 1 <= month && 1 <= day
    ensures var url := DateUrl(cfg, year, month, day).value;
      var head := cfg.baseUrl + DateSegment(year, month, day).value;
      && |head| + |QueryTail| <= |url|
      && url[..|head|] == head
      && url[|url| - |QueryTail|..] == QueryTail
      && url[|head|..|url| - |QueryTail|] == "?access_key=" + cfg.accessKey
  {
    var head := cfg.baseUrl + DateSegment(year, month, day).value;
    var key := "?access_key=" + cfg.accessKey;
    assert DateUrl(cfg, year, month, day).value == head + key + QueryTail;
    PrefixAndSuffix(head, key, QueryTail);
  }

  /** `a + b + c` starts with `a` and ends with `c`. */
  lemma PrefixAndSuffix(a: string, b: string, c: string)
    ensures var s := a + b + c;
      && |a| + |c| <= |s| && s[..|a|] == a && s[|s| - |c|..] == c && s[|a|..|s| - |c|] == b
  {
    var s := a + b + c;
    assert s[..|a|] == a;
    assert s[|s| - |c|..] == c;
    assert s[|a|..|s| - |c|] == b;
  }

  /**
   * `_get_api_data_for_date` (and its wrapper `_fetch_currency_data`): the padding runs before
   * the guarded request, so a month or day below 1 raises instead of giving `None`; otherwise
   * the decoded body is returned, and `None` for a failed request, without raising.
   */
  function GetApiDataForDate(cfg: ApiConfig, http: string -> Option<Value>, year: int, month: int, day: int)
    : (r: Result<Value, PyException>)
    ensures r.Failure? <==> month < 1 || day < 1
    ensures month == 0 ==> r == Failure(ValueError(ZeroComponent))
    ensures month < 0 ==> r == Failure(ValueError(NegativeComponent))
    ensures 1 <= month && day == 0 ==> r == Failure(ValueError(ZeroComponent))
    ensures 1 <= month && day < 0 ==> r == Failure(ValueError(NegativeComponent))
    ensures r.Failure? ==> r.error.ValueError?
    ensures r.Success? ==> var response := http(DateUrl(cfg, year, month, day).value);
      && (response.Some? ==> r.value == response.value)
      && (r.value == VNone <==> response == None || response == Some(VNone))
  {
    match DateUrl(cfg, year, month, day)
    case Failure(e) => Failure(e)
    case Success(url) =>
      match http(url)
      case None => Success(VNone)
      case Some(body) => Success(body)
  }

  /**
   * For an ordinary date the segment splits back into the year, month and day it was built
   * from: the year's digits, a dash, two month digits, a dash, two day digits.
   */
  lemma DateSegmentRoundTrip(year: nat, month: int, day: int)
    requires 1 <= month <= 99 && 1 <= day <= 99
    ensures DateSegment(year, month, day).Success?
    ensures var s := DateSegment(year, month, day).value;
      && |s| >= 7
      && s[|s| - 6] == '-' && s[|s| - 3] == '-'
      && AllDigits(s[..|s| - 6]) && ParseDecimal(s[..|s| - 6]) == year
      && AllDigits(s[|s| - 5..|s| - 3]) && ParseDecimal(s[|s| - 5..|s| - 3]) == month
      && AllDigits(s[|s| - 2..]) && ParseDecimal(s[|s| - 2..]) == day
  {
    NatToStringCorrect(year);
    TwoDigitRoundTrip(month);
    TwoDigitRoundTrip(day);
    var y := NatToString(year);
    var mm := FormatDateComponent(month).value;
    var dd := FormatDateComponent(day).value;
    assert DateSegment(year, month, day).value == y + "-" + mm + "-" + dd;
    SegmentParts(y, mm, dd);
  }

  /** `y-mm-dd` with two-character `mm` and `dd` splits back into its three parts. */
  lemma SegmentParts(y: string, mm: string, dd: string)
    requires |mm| == 2 && |dd| == 2
    ensures var s := y + "-" + mm + "-" + dd;
      && |s| == |y| + 6
      && s[|s| - 6] == '-' && s[|s| - 3] == '-'
      && s[..|s| - 6] == y && s[|s| - 5..|s| - 3] == mm && s[|s| - 2..] == dd
  {
    var s := y + "-" + mm + "-" + dd;
    assert s[..|s| - 6] == y;
    assert s[|s| - 5..|s| - 3] == mm;
    assert s[|s| - 2..] == dd;
  }

  /** The `n` consecutive numbers from `lo` on, in increasing order. */
  function Consecutive(lo: int, n: nat): (trace: seq<int>)
  {
    if n == 0 then [] else Consecutive(lo, n - 1) + [lo + n - 1]
  }

  /** `Consecutive(lo, n)` is `lo, lo + 1, ..., lo + n - 1`. */
  lemma {:induction false} ConsecutiveValues(lo: int, n: nat)
    ensures |Consecutive(lo, n)| == n
    ensures forall i :: 0 <= i < n ==> Consecutive(lo, n)[i] == lo + i
  {
    if n > 0 {
      ConsecutiveValues(lo, n - 1);
    }
  }

  /**
   * `data` holds exactly the responses of the days `lo <= d < hi` that are not `None`, each
   * under its day.
   */
  ghost predicate HoldsDays(cfg: ApiConfig, http: string -> Option<Value>, year: int, month: int, lo: int, hi: int, data: map<int, Value>)
  {
    && (forall d :: d in data ==>
          lo <= d < hi && data[d] != VNone && GetApiDataForDate(cfg, http, year, month, d) == Success(data[d]))
    && (forall d :: lo <= d < hi && d !in data ==> GetApiDataForDate(cfg, http, year, month, d) == Success(VNone))
  }

  /** One more day's response keeps `HoldsDays` with the range grown by one. */
  lemma HoldsDaysStep(cfg: ApiConfig, http: string -> Option<Value>, year: int, month: int, lo: int, day: int, data: map<int, Value>)
    requires 1 <= month && 1 <= day && lo <= day
    requires HoldsDays(cfg, http, year, month, lo, day, data)
    ensures var res := GetApiDataForDate(cfg, http, year, month, day);
      && res.Success?
      && HoldsDays(cfg, http, year, month, lo, day + 1, if res.value != VNone then data[day := res.value] else data)
  {
    var res := GetApiDataForDate(cfg, http, year, month, day);
    var next := if res.value != VNone then data[day := res.value] else data;
    forall d | d in next
      ensures lo <= d < day + 1 && next[d] != VNone && GetApiDataForDate(cfg, http, year, month, d) == Success(next[d])
    {
      if d != day {
        assert d in data && next[d] == data[d];
      }
    }
    forall d | lo <= d < day + 1 && d !in next
      ensures GetApiDataForDate(cfg, http, year, month, d) == Success(VNone)
    {
      if d != day {
        assert d !in data;
      }
    }
  }

  /**
   * `_fetch_currency_data_for_month`: one request per day 1..31 in increasing order; a day
   * whose response is `None` (a failed request or a `null` body) is left out. A month below 1 raises on day 1, before any request.
   */
  method FetchForMonth(cfg: ApiConfig, http: string -> Option<Value>, year: int, month: int)
    returns (r: Result<map<int, Value>, PyException>, ghost days: seq<int>)
    ensures month < 1 ==> r == Failure(ValueError(if month == 0 then ZeroComponent else NegativeComponent)) && days == []
    ensures month >= 1 ==> r.Success?
    ensures month >= 1 ==> days == Consecutive(1, 31)
    ensures r.Success? ==> forall d :: d in r.value ==>
      1 <= d <= 31 && r.value[d] != VNone && GetApiDataForDate(cfg, http, year, month, d) == Success(r.value[d])
    ensures r.Success? ==> forall d :: 1 <= d <= 31 && d !in r.value ==>
      GetApiDataForDate(cfg, http, year, month, d) == Success(VNone)
  {
    var monthData: map<int, Value> := map[];
    days := [];
    if month < 1 {
      // The first iteration, day 1, raises while padding the month.
      var dataForDay := GetApiDataForDate(cfg, http, year, month, 1);
      return Failure(dataForDay.error), days;
    }
    for day := 1 to 32
      invariant days == Consecutive(1, day - 1)
      invariant HoldsDays(cfg, http, year, month, 1, day, monthData)
    {
      HoldsDaysStep(cfg, http, year, month, 1, day, monthData);
      var dataForDay := GetApiDataForDate(cfg, http, year, month, day);
      days := days + [day];
      if dataForDay.value != VNone {
        monthData := monthData[day := dataForDay.value];
      }
    }
    r := Success(monthData);
  }

  /**
   * `_fetch_currency_data_for_year`: one request for day 1 of each month 1..12 in increasing
   * order; a month whose response is `None` is left out. It never raises.
   */
  method FetchForYear(cfg: ApiConfig, http: string -> Option<Value>, year: int)
    returns (r: map<int, Value>, ghost months: seq<int>)
    ensures months == Consecutive(1, 12)
    ensures forall m :: m in r ==>
      1 <= m <= 12 && r[m] != VNone && GetApiDataForDate(cfg, http, year, m, 1) == Success(r[m])
    ensures forall m :: 1 <= m <= 12 && m !in r ==> GetApiDataForDate(cfg, http, year, m, 1) == Success(VNone)
  {
    r := map[];
    months := [];
    for month := 1 to 13
      invariant months == Consecutive(1, month - 1)
      invariant HoldsMonths(cfg, http, year, month, r)
    {
      HoldsMonthsStep(cfg, http, year, month, r);
      var dataForMonth := GetApiDataForDate(cfg, http, year, month, 1);
      months := months + [month];
      if dataForMonth.value != VNone {
        r := r[month := dataForMonth.value];
      }
    }
  }

  /** `data` holds exactly the day-1 responses of the months `1 <= m < hi` that are not `None`. */
  ghost predicate HoldsMonths(cfg: ApiConfig, http: string -> Option<Value>, year: int, hi: int, data: map<int, Value>)
  {
    && (forall m :: m in data ==>
          1 <= m < hi && data[m] != VNone && GetApiDataForDate(cfg, http, year, m, 1) == Success(data[m]))
    && (forall m :: 1 <= m < hi && m !in data ==> GetApiDataForDate(cfg, http, year, m, 1) == Success(VNone))
  }

  /** One more month's response keeps `HoldsMonths` with the range grown by one. */
  lemma HoldsMonthsStep(cfg: ApiConfig, http: string -> Option<Value>, year: int, month: int, data: map<int, Value>)
    requires 1 <= month
    requires HoldsMonths(cfg, http, year, month, data)
    ensures var res := GetApiDataForDate(cfg, http, year, month, 1);
      && res.Success?
      && HoldsMonths(cfg, http, year, month + 1, if res.value != VNone then data[month := res.value] else data)
  {
    var res := GetApiDataForDate(cfg, http, year, month, 1);
    var next := if res.value != VNone then data[month := res.value] else data;
    forall m | m in next
      ensures 1 <= m < month + 1 && next[m] != VNone && GetApiDataForDate(cfg, http, year, m, 1) == Success(next[m])
    {
      if m != month {
        assert m in data && next[m] == data[m];
      }
    }
    forall m | 1 <= m < month + 1 && m !in next
      ensures GetApiDataForDate(cfg, http, year, m, 1) == Success(VNone)
    {
      if m != month {
        assert m !in data;
      }
    }
  }

  /** The day range `_fetch_currency_data_for_time_series` accepts. */
  predicate ValidDayRange(startDay: int, endDay: int)
  {
    1 <= startDay <= 31 && 1 <= endDay <= 31 && startDay <= endDay
  }

  /**
   * `_fetch_currency_data_for_time_series`: an invalid range gives an empty dictionary without
   * any request; otherwise one request per day from `startDay` to `endDay` inclusive, keeping
   * the days whose response is not `None`. A month below 1 raises on the first day.
   */
  method FetchForTimeSeries(cfg: ApiConfig, http: string -> Option<Value>, year: int, month: int, startDay: int, endDay: int)
    returns (r: Result<map<int, Value>, PyException>, ghost days: seq<int>)
    ensures !ValidDayRange(startDay, endDay) ==> r == Success(map[]) && days == []
    ensures ValidDayRange(startDay, endDay) && month == 0 ==> r == Failure(ValueError(ZeroComponent)) && days == []
    ensures ValidDayRange(startDay, endDay) && month < 0 ==> r == Failure(ValueError(NegativeComponent)) && days == []
    ensures ValidDayRange(startDay, endDay) && month >= 1 ==>
      r.Success? && days == Consecutive(startDay, endDay - startDay + 1)
    ensures r.Success? ==> forall d :: d in r.value ==>
      startDay <= d <= endDay && r.value[d] != VNone && GetApiDataForDate(cfg, http, year, month, d) == Success(r.value[d])
    ensures r.Success? && ValidDayRange(startDay, endDay) ==> forall d :: startDay <= d <= endDay && d !in r.value ==>
      GetApiDataForDate(cfg, http, year, month, d) == Success(VNone)
  {
    days := [];
    if !ValidDayRange(startDay, endDay) {
      return Success(map[]), days;
    }
    var timeSeriesData: map<int, Value> := map[];
    if month < 1 {
      // The first iteration, `startDay`, raises while padding the month.
      var dataForDay := GetApiDataForDate(cfg, http, year, month, startDay);
      return Failure(dataForDay.error), days;
    }
    for day := startDay to endDay + 1
      invariant days == Consecutive(startDay, day - startDay)
      invariant HoldsDays(cfg, http, year, month, startDay, day, timeSeriesData)
    {
      HoldsDaysStep(cfg, http, year, month, startDay, day, timeSeriesData);
      var dataForDay := GetApiDataForDate(cfg, http, year, month, day);
      days := days + [day];
      if dataForDay.value != VNone {
        timeSeriesData := timeSeriesData[day := dataForDay.value];
      }
    }
    r := Success(timeSeriesData);
  }
}

=== FILE: conversion_utils.dfy ===
/**
 * Model of `app/utils/conversion_utils.py`: the two-digit date-component formatter,
 * together with Python's `str()` on integers that it relies on.
 */
module ConversionUtils {
  import opened Wrappers
  import opened Python

  /** The decimal digit character for `d`. */
  function DigitChar(d: nat): (c: char)
    requires d < 10
    ensures '0' <= c <= '9' && (c as int) - ('0' as int) == d
  {
    (d + '0' as int) as char
  }

  predicate IsDigit(c: char)
  {
    '0' <= c <= '9'
  }

  predicate AllDigits(s: string)
  {
    forall i :: 0 <= i < |s| ==> IsDigit(s[i])
  }

  /** Python's `str(n)` for a non-negative integer: the shortest decimal rendering. */
  function NatToString(n: nat): (s: string)
  {
    if n < 10 then [DigitChar(n)] else NatToString(n / 10) + [DigitChar(n % 10)]
  }

  /** Python's `str(i)` for any integer: a minus sign in front of a negative one. */
  function IntToString(i: int): (s: string)
  {
    if i < 0 then "-" + NatToString(-i) else NatToString(i)
  }

  /** Reads a string of decimal digits back as a number (`int(s)` on digit strings). */
  function ParseDecimal(s: string): (n: nat)
    requires AllDigits(s)
  {
    if s == [] then 0
    else ParseDecimal(s[..|s| - 1]) * 10 + ((s[|s| - 1] as int) - ('0' as int))
  }

  /** `str(n)` is non-empty, all digits, reads back as `n` and has no leading zero. */
  lemma {:induction false} NatToStringCorrect(n: nat)
    ensures var s := NatToString(n);
      && s != []
      && AllDigits(s)
      && ParseDecimal(s) == n
      && (n >= 10 ==> s[0] != '0')
      && (|s| == 1 <==> n < 10)
      && (|s| == 2 <==> 10 <= n < 100)
  {
    if n >= 10 {
      NatToStringCorrect(n / 10);
      var s := NatToString(n);
      var p := NatToString(n / 10);
      assert s == p + [DigitChar(n % 10)];
      assert s[..|s| - 1] == p;
      assert (n / 10 < 10) ==> |p| == 1;
    }
  }

  /**
   * `_format_date_component`: zero is rejected first, then anything below 1; a value below 10
   * gets a "0" in front of its digit, anything else is rendered as `str()` does.
   */
  function FormatDateComponent(component: int): (r: Result<string, PyException>)
    ensures r.Failure? <==> component < 1
    ensures component == 0 ==> r == Failure(ValueError(ZeroComponent))
    ensures component < 0 ==> r == Failure(ValueError(NegativeComponent))
  {
    if component == 0 then
      Failure(ValueError(ZeroComponent))
    else if component < 1 then
      Failure(ValueError(NegativeComponent))
    else
      Success(if component < 10 then "0" + NatToString(component) else NatToString(component))
  }

  /**
   * What `_format_date_component` returns for a valid component: at least two digits that read
   * back as the component, a "0" and the digit below 10, and `str()` with no leading zero from
   * 10 on.
   */
  lemma FormatDateComponentDigits(component: int)
    requires component >= 1
    ensures var s := FormatDateComponent(component).value;
      && AllDigits(s)
      && ParseDecimal(s) == component
      && |s| >= 2
      && (component <= 9 ==> s == ['0', DigitChar(component)])
      && (component >= 10 ==> s == NatToString(component) && s[0] != '0')
  {
    NatToStringCorrect(component);
  }

  /** Every value a two-digit field can hold comes out as exactly two digits that read back as it. */
  lemma TwoDigitRoundTrip(component: int)
    requires 1 <= component <= 99
    ensures FormatDateComponent(component).Success?
    ensures var s := FormatDateComponent(component).value;
      |s| == 2 && IsDigit(s[0]) && IsDigit(s[1]) && ParseDecimal(s) == component
  {
    NatToStringCorrect(component);
    FormatDateComponentDigits(component);
  }

  /** Months 1..12 and days 1..31 never fail and always give two characters. */
  lemma CalendarComponentsFormat(month: int, day: int)
    requires 1 <= month <= 12 && 1 <= day <= 31
    ensures FormatDateComponent(month).Success? && |FormatDateComponent(month).value| == 2
    ensures FormatDateComponent(day).Success? && |FormatDateComponent(day).value| == 2
  {
    TwoDigitRoundTrip(month);
    TwoDigitRoundTrip(day);
  }

  /** The two examples of the function's documentation: 3 gives "03" and 12 gives "12". */
  lemma DocumentedExamples()
    ensures FormatDateComponent(3) == Success("03")
    ensures FormatDateComponent(12) == Success("12")
  {
    assert NatToString(3) == "3";
    assert "0" + "3" == "03";
    assert NatToString(12) == NatToString(1) + [DigitChar(2)] == "12";
  }
}

=== FILE: currency_service.dfy ===
/**
 * Model of `app/services/currency_service.py`: EUR-pivoted conversions over the stored rates.
 *
 * The rate table is the sequence of its rows in the order the database returns them (the
 * query has no `ORDER BY`); the lookup's SQL `WHERE` keeps the rows whose date and target code
 * both match, in that order, and the first of them is used. Amounts and
 * rates are `real`: the source computes with Python floats and never rounds.
 */
module CurrencyService {
  import opened Wrappers
  import opened Python
  import opened Db2Utils

  /** One row of the rates table: EUR (the base) to `targetCode` on `rateDate`. */
  datatype RateRow = RateRow(rateDate: string, baseCode: string, targetCode: string, exchangeRate: real)

  const Eur: string := "EUR"

  /**
   * The text of the lookup query; date and code are pasted in between single quotes. When
   * none of the three pieces holds a quote, the quoted literals are exactly the date and the
   * code; a quote inside one of them would change the query's structure.
   */
  function RateQuery(table: string, rateDate: string, code: string): (q: string)
    ensures Lacks(table, '\'') && Lacks(rateDate, '\'') && Lacks(code, '\'') ==>
      Split(q, '\'') == ["SELECT EXCHANGE_RATE FROM " + table + " WHERE RATE_DATE = ", rateDate,
                         " AND TARGET_CURRENCY_CODE = ", code, ""]
  {
    var head := "SELECT EXCHANGE_RATE FROM " + table + " WHERE RATE_DATE = ";
    var mid := " AND TARGET_CURRENCY_CODE = ";
    var q := head + "'" + rateDate + "'" + mid + "'" + code + "'";
    assert Lacks(table, '\'') && Lacks(rateDate, '\'') && Lacks(code, '\'') ==>
      Split(q, '\'') == [head, rateDate, mid, code, ""] by {
      if Lacks(table, '\'') && Lacks(rateDate, '\'') && Lacks(code, '\'') {
        NotInLacks("SELECT EXCHANGE_RATE FROM ", '\'');
        NotInLacks(" WHERE RATE_DATE = ", '\'');
        NotInLacks(mid, '\'');
        LacksConcat("SELECT EXCHANGE_RATE FROM ", table, '\'');
        LacksConcat("SELECT EXCHANGE_RATE FROM " + table, " WHERE RATE_DATE = ", '\'');
        SplitFourClosed(head, rateDate, mid, code, '\'');
      }
    }
    q
  }

  /** Whether a row satisfies the lookup's `WHERE` clause. */
  predicate Matches(row: RateRow, rateDate: string, code: string)
  {
    row.rateDate == rateDate && row.targetCode == code
  }

  /** The rows the lookup query returns, in the order the database returns them. */
  function MatchingRows(rows: seq<RateRow>, rateDate: string, code: string): (m: seq<RateRow>)
    ensures |m| <= |rows|
    ensures forall i :: 0 <= i < |m| ==> Matches(m[i], rateDate, code)
    ensures m == [] <==> forall i :: 0 <= i < |rows| ==> !Matches(rows[i], rateDate, code)
  {
    if rows == [] then []
    else if Matches(rows[0], rateDate, code) then [rows[0]] + MatchingRows(rows[1..], rateDate, code)
    else
      assert forall i :: 1 <= i < |rows| ==> rows[i] == rows[1..][i - 1];
      MatchingRows(rows[1..], rateDate, code)
  }

  /** The first row returned by the query is the earliest matching row of the table. */
  lemma {:induction false} FirstMatchingRow(rows: seq<RateRow>, rateDate: string, code: string, i: nat)
    requires i < |rows| && Matches(rows[i], rateDate, code)
    requires forall j :: 0 <= j < i ==> !Matches(rows[j], rateDate, code)
    ensures MatchingRows(rows, rateDate, code) != []
    ensures MatchingRows(rows, rateDate, code)[0] == rows[i]
  {
    if i > 0 {
      FirstMatchingRow(rows[1..], rateDate, code, i - 1);
    }
  }

  /**
   * `_get_exchange_rate`: the EUR-to-`code` rate of the first row matching both the date and
   * the code; no matching row raises `ExchangeRateNotFoundError`.
   */
  function GetExchangeRate(rows: seq<RateRow>, rateDate: string, code: string): (r: Result<real, PyException>)
    ensures r.Failure? <==> forall i :: 0 <= i < |rows| ==> !Matches(rows[i], rateDate, code)
    ensures r.Failure? ==> r.error == ExchangeRateNotFoundError(rateDate, code)
    ensures r.Success? ==> exists i :: 0 <= i < |rows| && Matches(rows[i], rateDate, code) && r.value == rows[i].exchangeRate
  {
    var found := MatchingRows(rows, rateDate, code);
    if found == [] then
      Failure(ExchangeRateNotFoundError(rateDate, code))
    else
      ghost var i := FirstMatchIndex(rows, rateDate, code);
      FirstMatchingRow(rows, rateDate, code, i);
      Success(found[0].exchangeRate)
  }

  /** The index of the earliest row matching the lookup. */
  ghost function FirstMatchIndex(rows: seq<RateRow>, rateDate: string, code: string): (i: nat)
    requires exists k :: 0 <= k < |rows| && Matches(rows[k], rateDate, code)
    ensures i < |rows| && Matches(rows[i], rateDate, code)
    ensures forall j :: 0 <= j < i ==> !Matches(rows[j], rateDate, code)
  {
    if Matches(rows[0], rateDate, code) then 0
    else
      assert exists k :: 0 <= k < |rows[1..]| && Matches(rows[1..][k], rateDate, code) by {
        var k :| 0 <= k < |rows| && Matches(rows[k], rateDate, code);
        assert rows[1..][k - 1] == rows[k];
      }
      1 + FirstMatchIndex(rows[1..], rateDate, code)
  }

  /** When several rows match, the lookup returns the rate of the earliest one. */
  lemma RateIsFirstMatch(rows: seq<RateRow>, rateDate: string, code: string, i: nat)
    requires i < |rows| && Matches(rows[i], rateDate, code)
    requires forall j :: 0 <= j < i ==> !Matches(rows[j], rateDate, code)
    ensures GetExchangeRate(rows, rateDate, code) == Success(rows[i].exchangeRate)
  {
    FirstMatchingRow(rows, rateDate, code, i);
  }

  /** No two rows share a date and a target code (the table's intended key). */
  ghost predicate Keyed(rows: seq<RateRow>)
  {
    forall i, j :: 0 <= i < j < |rows| && rows[i].rateDate == rows[j].rateDate ==> rows[i].targetCode != rows[j].targetCode
  }

  /** On a keyed table the lookup is a plain map read: the one matching row's rate. */
  lemma KeyedLookup(rows: seq<RateRow>, i: nat)
    requires Keyed(rows) && i < |rows|
    ensures GetExchangeRate(rows, rows[i].rateDate, rows[i].targetCode) == Success(rows[i].exchangeRate)
  {
    RateIsFirstMatch(rows, rows[i].rateDate, rows[i].targetCode, i);
  }

  /** `convert_eur_to_currency`: `rate(date, code) * amount`. */
  function ConvertEurToCurrency(rows: seq<RateRow>, amount: real, targetCode: string, rateDate: string)
    : (r: Result<real, PyException>)
    ensures r.Failure? <==> GetExchangeRate(rows, rateDate, targetCode).Failure?
    ensures r.Failure? ==> r.error == ExchangeRateNotFoundError(rateDate, targetCode)
    ensures r.Success? ==> r.value == GetExchangeRate(rows, rateDate, targetCode).value * amount
  {
    match GetExchangeRate(rows, rateDate, targetCode)
    case Failure(e) => Failure(e)
    case Success(rate) => Success(rate * amount)
  }

  /**
   * `convert_currency_to_eur`: a missing rate is reported first, then a zero rate; otherwise
   * the amount is multiplied by the reciprocal of the rate.
   */
  function ConvertCurrencyToEur(rows: seq<RateRow>, amount: real, baseCode: string, rateDate: string)
    : (r: Result<real, PyException>)
    ensures GetExchangeRate(rows, rateDate, baseCode).Failure? ==> r == Failure(ExchangeRateNotFoundError(rateDate, baseCode))
    ensures GetExchangeRate(rows, rateDate, baseCode) == Success(0.0) ==> r == Failure(ValueError(ZeroRate(baseCode)))
    ensures r.Success? <==>
      GetExchangeRate(rows, rateDate, baseCode).Success? && GetExchangeRate(rows, rateDate, baseCode).value != 0.0
    ensures r.Success? ==>
      var rate := GetExchangeRate(rows, rateDate, baseCode);
      rate.Success? && rate.value != 0.0 && r.value == amount / rate.value
  {
    match GetExchangeRate(rows, rateDate, baseCode)
    case Failure(e) => Failure(e)
    case Success(rate) =>
      if rate == 0.0 then Failure(ValueError(ZeroRate(baseCode)))
      else Success((1.0 / rate) * amount)
  }

  /**
   * `convert_between_non_eur_currencies`: EUR on either side is refused before any lookup;
   * both rates are looked up (base first) before the zero check on the base rate; the result
   * is `(amount / base rate) * target rate`.
   */
  function ConvertBetweenNonEurCurrencies(rows: seq<RateRow>, amount: real, baseCode: string, targetCode: string, rateDate: string)
    : (r: Result<real, PyException>)
    ensures baseCode == Eur || targetCode == Eur ==> r == Failure(ValueError(NotCrossPair))
    ensures baseCode != Eur && targetCode != Eur ==>
      var base := GetExchangeRate(rows, rateDate, baseCode);
      var target := GetExchangeRate(rows, rateDate, targetCode);
      && (base.Failure? ==> r == Failure(ExchangeRateNotFoundError(rateDate, baseCode)))
      && (base.Success? && target.Failure? ==> r == Failure(ExchangeRateNotFoundError(rateDate, targetCode)))
      && (base == Success(0.0) && target.Success? ==> r == Failure(ValueError(ZeroRate(baseCode))))
      && (r.Success? <==> base.Success? && target.Success? && base.value != 0.0)
      && (r.Success? ==> base.Success? && target.Success? && base.value != 0.0
                         && r.value == (amount / base.value) * target.value)
  {
    if baseCode == Eur || targetCode == Eur then
      Failure(ValueError(NotCrossPair))
    else
      match GetExchangeRate(rows, rateDate, baseCode)
      case Failure(e) => Failure(e)
      case Success(eurToBase) =>
        match GetExchangeRate(rows, rateDate, targetCode)
        case Failure(e) => Failure(e)
        case Success(eurToTarget) =>
          if eurToBase == 0.0 then Failure(ValueError(ZeroRate(baseCode)))
          else Success((amount / eurToBase) * eurToTarget)
  }

  /** The EUR check does not depend on the table at all: no lookup can come before it. */
  lemma EurRefusedWithoutLookup(rows1: seq<RateRow>, rows2: seq<RateRow>, amount: real, baseCode: string, targetCode: string, rateDate: string)
    requires baseCode == Eur || targetCode == Eur
    ensures ConvertBetweenNonEurCurrencies(rows1, amount, baseCode, targetCode, rateDate)
         == ConvertBetweenNonEurCurrencies(rows2, amount, baseCode, targetCode, rateDate)
  {
  }

  /** Converting EUR to a currency with a non-zero rate and back gives the original amount. */
  lemma EurRoundTrip(rows: seq<RateRow>, amount: real, code: string, rateDate: string)
    requires GetExchangeRate(rows, rateDate, code).Success?
    requires GetExchangeRate(rows, rateDate, code).value != 0.0
    ensures ConvertEurToCurrency(rows, amount, code, rateDate).Success?
    ensures ConvertCurrencyToEur(rows, ConvertEurToCurrency(rows, amount, code, rateDate).value, code, rateDate)
         == Success(amount)
  {
    var rate := GetExchangeRate(rows, rateDate, code).value;
    var there := rate * amount;
    assert ConvertEurToCurrency(rows, amount, code, rateDate).value == there;
    assert ConvertCurrencyToEur(rows, there, code, rateDate).value == (1.0 / rate) * there;
    calc {
      (1.0 / rate) * there;
      (1.0 / rate) * (rate * amount);
      ((1.0 / rate) * rate) * amount;
      { assert (1.0 / rate) * rate == 1.0; }
      amount;
    }
  }

  /** A cross conversion is the two-hop pivot: to EUR from the base, then from EUR to the target. */
  lemma CrossIsPivotThroughEur(rows: seq<RateRow>, amount: real, baseCode: string, targetCode: string, rateDate: string)
    requires baseCode != Eur && targetCode != Eur
    requires ConvertBetweenNonEurCurrencies(rows, amount, baseCode, targetCode, rateDate).Success?
    ensures ConvertCurrencyToEur(rows, amount, baseCode, rateDate).Success?
    ensures var viaEur := ConvertEurToCurrency(rows, ConvertCurrencyToEur(rows, amount, baseCode, rateDate).value, targetCode, rateDate);
      viaEur.Success? && ConvertBetweenNonEurCurrencies(rows, amount, baseCode, targetCode, rateDate).value == viaEur.value
  {
    var b := GetExchangeRate(rows, rateDate, baseCode).value;
    var t := GetExchangeRate(rows, rateDate, targetCode).value;
    var toEur := (1.0 / b) * amount;
    assert ConvertCurrencyToEur(rows, amount, baseCode, rateDate).value == toEur;
    assert ConvertEurToCurrency(rows, toEur, targetCode, rateDate).value == t * toEur;
    assert toEur == amount / b;
    assert t * toEur == (amount / b) * t;
    assert ConvertEurToCurrency(rows, toEur, targetCode, rateDate).Success?;
    assert ConvertBetweenNonEurCurrencies(rows, amount, baseCode, targetCode, rateDate).value == (amount / b) * t;
  }

  /** Converting from base to target and back again returns the original amount. */
  lemma CrossRoundTrip(rows: seq<RateRow>, amount: real, baseCode: string, targetCode: string, rateDate: string)
    requires baseCode != Eur && targetCode != Eur
    requires ConvertBetweenNonEurCurrencies(rows, amount, baseCode, targetCode, rateDate).Success?
    requires GetExchangeRate(rows, rateDate, targetCode).value != 0.0
    ensures var there := ConvertBetweenNonEurCurrencies(rows, amount, baseCode, targetCode, rateDate).value;
      ConvertBetweenNonEurCurrencies(rows, there, targetCode, baseCode, rateDate) == Success(amount)
  {
    var b := GetExchangeRate(rows, rateDate, baseCode).value;
    var t := GetExchangeRate(rows, rateDate, targetCode).value;
    var there := (amount / b) * t;
    assert ConvertBetweenNonEurCurrencies(rows, amount, baseCode, targetCode, rateDate).value == there;
    assert ConvertBetweenNonEurCurrencies(rows, there, targetCode, baseCode, rateDate).Success?;
    assert ConvertBetweenNonEurCurrencies(rows, there, targetCode, baseCode, rateDate).value == (there / t) * b;
    calc {
      (there / t) * b;
      { assert there / t == amount / b; }
      (amount / b) * b;
      amount;
    }
  }
}

=== FILE: db2_utils.dfy ===
/**
 * Model of `app/utils/db2_utils.py`: the texts sent to the Db2 driver (connection string,
 * INSERT and SELECT statements), the positional binding of an INSERT's values, and the loop
 * that drains a result cursor.
 *
 * The driver itself is left abstract: `execute` maps a statement text to the sequence of
 * results `fetch_assoc` would hand out for it, and `Cursor` hands them out one at a time.
 */
module Db2Utils {
  import opened Python

  // ---------------------------------------------------------------------------------------
  // Text helpers
  // ---------------------------------------------------------------------------------------

  /** Python's `sep.join(parts)`. */
  function Join(parts: seq<string>, sep: string): (s: string)
  {
    if parts == [] then ""
    else if |parts| == 1 then parts[0]
    else parts[0] + sep + Join(parts[1..], sep)
  }

  /** The number of occurrences of `c` in `s`. */
  function Count(s: string, c: char): (n: nat)
  {
    multiset(s)[c]
  }

  /** The first index of `c` in `s`, or `|s|` when `c` does not occur. */
  function IndexOf(s: string, c: char): (i: nat)
    ensures i <= |s|
    ensures forall k :: 0 <= k < i ==> s[k] != c
    ensures i < |s| ==> s[i] == c
  {
    if s == [] || s[0] == c then 0 else 1 + IndexOf(s[1..], c)
  }

  /** Python's `s.split(c)` for a one-character separator. */
  function Split(s: string, c: char): (parts: seq<string>)
    decreases |s|
  {
    var i := IndexOf(s, c);
    if i == |s| then [s] else [s[..i]] + Split(s[i + 1..], c)
  }

  /** Splitting on the separator recovers the parts of a join, when no part holds the separator. */
  lemma {:induction false} SplitJoin(parts: seq<string>, c: char)
    requires parts != []
    requires forall j :: 0 <= j < |parts| ==> Lacks(parts[j], c)
    ensures Split(Join(parts, [c]), c) == parts
  {
    var s := Join(parts, [c]);
    if |parts| == 1 {
      assert IndexOf(s, c) == |s|;
    } else {
      var rest := Join(parts[1..], [c]);
      assert s == parts[0] + [c] + rest;
      var i := |parts[0]|;
      assert s[i] == c;
      assert IndexOf(s, c) == i;
      assert s[..i] == parts[0];
      assert s[i + 1..] == rest;
      SplitJoin(parts[1..], c);
      assert [parts[0]] + parts[1..] == parts;
    }
  }

  // ---------------------------------------------------------------------------------------
  // Connection string
  // ---------------------------------------------------------------------------------------

  /** The Db2 settings read from the configuration. */
  datatype Db2Config = Db2Config(
    database: string, hostname: string, port: string, sslCertificate: string, uid: string, pwd: string)

  /** The `KEY=value` settings of the connection string, in the order they are written. */
  function ConnectionFields(cfg: Db2Config): (fields: seq<string>)
  {
    [ "DATABASE=" + cfg.database,
      "HOSTNAME=" + cfg.hostname,
      "PORT=" + cfg.port,
      "SECURITY=SSL",
      "SSLServerCertificate=" + cfg.sslCertificate,
      "UID=" + cfg.uid,
      "PWD=" + cfg.pwd ]
  }

  /** No setting of the configuration holds a `;`. */
  predicate PlainSettings(cfg: Db2Config)
  {
    && Lacks(cfg.database, ';') && Lacks(cfg.hostname, ';') && Lacks(cfg.port, ';')
    && Lacks(cfg.sslCertificate, ';') && Lacks(cfg.uid, ';') && Lacks(cfg.pwd, ';')
  }

  /**
   * The connection string of `_connect_to_database`: the settings separated by `;`, so that
   * a driver splitting it on `;` reads back exactly the settings, when none of them holds a `;`.
   */
  function ConnectionString(cfg: Db2Config): (r: string)
    ensures PlainSettings(cfg) ==> Split(r, ';') == ConnectionFields(cfg)
  {
    var fields := ConnectionFields(cfg);
    assert PlainSettings(cfg) ==> Split(Join(fields, ";"), ';') == fields by {
      if PlainSettings(cfg) {
        forall j | 0 <= j < |fields| ensures Lacks(fields[j], ';') {
        }
        assert [';'] == ";";
        SplitJoin(fields, ';');
      }
    }
    Join(fields, ";")
  }

  /**
   * When no setting holds a `;`, the connection string splits on `;` into exactly the seven
   * settings, in order, with SSL always requested.
   */
  lemma ConnectionStringLayout(cfg: Db2Config)
    requires PlainSettings(cfg)
    ensures var fields := Split(ConnectionString(cfg), ';');
      && |fields| == 7
      && fields[0] == "DATABASE=" + cfg.database
      && fields[1] == "HOSTNAME=" + cfg.hostname
      && fields[2] == "PORT=" + cfg.port
      && fields[3] == "SECURITY=SSL"
      && fields[4] == "SSLServerCertificate=" + cfg.sslCertificate
      && fields[5] == "UID=" + cfg.uid
      && fields[6] == "PWD=" + cfg.pwd
  {
  }

  // ---------------------------------------------------------------------------------------
  // INSERT
  // ---------------------------------------------------------------------------------------

  /** `["?"] * n`. */
  function Placeholders(n: nat): (p: seq<string>)
    ensures |p| == n && forall i :: 0 <= i < n ==> p[i] == "?"
  {
    seq(n, _ => "?")
  }

  /**
   * The statement text of `_insert_to_db` for `n` values. When the table and column names hold
   * no `?`, it holds exactly one `?` per value, whatever the number of columns: nothing relates
   * the two counts.
   */
  function InsertSql(table: string, columns: seq<string>, n: nat): (r: string)
    ensures Lacks(table, '?') && (forall j :: 0 <= j < |columns| ==> Lacks(columns[j], '?')) ==> Count(r, '?') == n
  {
    InsertMarksCount(table, columns, n);
    "INSERT INTO " + table + " (" + Join(columns, ", ") + ") VALUES (" + Join(Placeholders(n), ", ") + ")"
  }

  /** The count behind `InsertSql`'s contract. */
  lemma InsertMarksCount(table: string, columns: seq<string>, n: nat)
    ensures Lacks(table, '?') && (forall j :: 0 <= j < |columns| ==> Lacks(columns[j], '?')) ==>
      Count("INSERT INTO " + table + " (" + Join(columns, ", ") + ") VALUES (" + Join(Placeholders(n), ", ") + ")", '?') == n
  {
    if Lacks(table, '?') && (forall j :: 0 <= j < |columns| ==> Lacks(columns[j], '?')) {
      JoinCount(columns, ", ", '?');
      PlaceholderCount(n);
      InsertTextCount(table, Join(columns, ", "), Join(Placeholders(n), ", "));
    }
  }

  /**
   * The INSERT text is `INSERT INTO <table> (<column list>) VALUES (<placeholder list>)`, and
   * both lists read back: when no column name holds a `,`, the column list splits on `,` into
   * the column names in order, and the placeholder list always splits into `n` question marks,
   * each after the first behind one space.
   */
  lemma InsertSqlLayout(table: string, columns: seq<string>, n: nat)
    ensures var cols := Join(columns, ", ");
      var marks := Join(Placeholders(n), ", ");
      && InsertSql(table, columns, n) == "INSERT INTO " + table + " (" + cols + ") VALUES (" + marks + ")"
      && (columns != [] && (forall j :: 0 <= j < |columns| ==> Lacks(columns[j], ',')) ==>
            var f := Split(cols, ',');
            && |f| == |columns| && f[0] == columns[0]
            && forall j :: 1 <= j < |columns| ==> f[j] == " " + columns[j])
      && (n > 0 ==>
            var m := Split(marks, ',');
            && |m| == n && m[0] == "?"
            && forall j :: 1 <= j < n ==> m[j] == " ?")
  {
    if columns != [] && (forall j :: 0 <= j < |columns| ==> Lacks(columns[j], ',')) {
      ColumnListLayout(columns);
    }
    if n > 0 {
      MarkListLayout(n);
    }
  }

  /** The `", "`-joined placeholder list splits on `,` into `?` and then `n - 1` times ` ?`. */
  lemma MarkListLayout(n: nat)
    requires n > 0
    ensures var m := Split(Join(Placeholders(n), ", "), ',');
      && |m| == n && m[0] == "?"
      && forall j :: 1 <= j < n ==> m[j] == " ?"
  {
    var p := Placeholders(n);
    forall j | 0 <= j < |p| ensures Lacks(p[j], ',') {
      assert p[j] == "?";
    }
    ColumnListLayout(p);
    assert " " + "?" == " ?";
  }


  /** Text without the separator splits into itself alone. */
  lemma SplitLacking(s: string, c: char)
    requires Lacks(s, c)
    ensures Split(s, c) == [s]
  {
    assert IndexOf(s, c) == |s|;
  }

  /** Splitting text that starts with a separator-free piece and a separator peels that piece off. */
  lemma SplitStep(a: string, c: char, b: string)
    requires Lacks(a, c)
    ensures Split(a + [c] + b, c) == [a] + Split(b, c)
  {
    var s := a + [c] + b;
    assert s[|a|] == c;
    assert IndexOf(s, c) == |a|;
    assert s[..|a|] == a;
    assert s[|a| + 1..] == b;
  }

  /** The pieces written one after the other, each closed by the separator. */
  function Closed(pieces: seq<string>, c: char): (s: string)
  {
    if pieces == [] then [] else pieces[0] + [c] + Closed(pieces[1..], c)
  }

  /** Separator-free pieces, each closed by the separator, split back into the pieces and a final empty one. */
  lemma {:induction false} SplitClosed(pieces: seq<string>, c: char)
    requires forall j :: 0 <= j < |pieces| ==> Lacks(pieces[j], c)
    ensures Split(Closed(pieces, c), c) == pieces + [[]]
  {
    if pieces == [] {
      SplitLacking([], c);
    } else {
      var rest := Closed(pieces[1..], c);
      assert Closed(pieces, c) == pieces[0] + [c] + rest;
      assert Split(Closed(pieces, c), c) == [pieces[0]] + Split(rest, c) by {
        SplitStep(pieces[0], c, rest);
      }
      SplitClosed(pieces[1..], c);
      assert [pieces[0]] + (pieces[1..] + [[]]) == pieces + [[]];
    }
  }

  /** Four separator-free pieces, each closed by the separator, split back into the four and a final empty one. */
  lemma SplitFourClosed(p0: string, p1: string, p2: string, p3: string, c: char)
    requires Lacks(p0, c) && Lacks(p1, c) && Lacks(p2, c) && Lacks(p3, c)
    ensures Split(p0 + [c] + p1 + [c] + p2 + [c] + p3 + [c], c) == [p0, p1, p2, p3, []]
  {
    var pieces := [p0, p1, p2, p3];
    assert Closed(pieces[3..], c) == p3 + [c] by {
      assert pieces[3..][1..] == [];
    }
    assert Closed(pieces[1..], c) == p1 + [c] + p2 + [c] + p3 + [c] by {
      assert pieces[1..][1..] == pieces[2..];
      assert pieces[2..][1..] == pieces[3..];
    }
    assert p0 + [c] + p1 + [c] + p2 + [c] + p3 + [c] == Closed(pieces, c);
    SplitClosed(pieces, c);
  }

  /**
   * A `", "`-joined list preceded by comma-free text splits on `,` into that text glued to
   * the first part, then every later part behind the one space of its separator.
   */
  lemma {:induction false} SplitCommaJoin(pre: string, parts: seq<string>)
    requires parts != [] && Lacks(pre, ',')
    requires forall j :: 0 <= j < |parts| ==> Lacks(parts[j], ',')
    ensures var f := Split(pre + Join(parts, ", "), ',');
      && |f| == |parts|
      && f[0] == pre + parts[0]
      && forall j :: 1 <= j < |parts| ==> f[j] == " " + parts[j]
    decreases |parts|
  {
    var s := pre + Join(parts, ", ");
    var head := pre + parts[0];
    LacksConcat(pre, parts[0], ',');
    if |parts| == 1 {
      assert s == head;
      SplitLacking(head, ',');
    } else {
      var rest := Join(parts[1..], ", ");
      var g := Split(" " + rest, ',');
      assert Split(s, ',') == [head] + g by {
        assert s == head + [','] + (" " + rest) by {
          assert Join(parts, ", ") == parts[0] + ", " + rest;
        }
        SplitStep(head, ',', " " + rest);
      }
      SplitCommaJoin(" ", parts[1..]);
      ShiftedParts(head, g, parts);
    }
  }

  /** Putting `head` in front of the fields of the tail lines them up with `parts` again. */
  lemma ShiftedParts(head: string, g: seq<string>, parts: seq<string>)
    requires |parts| >= 2 && |g| == |parts| - 1
    requires forall j :: 1 <= j < |parts[1..]| ==> g[j] == " " + parts[1..][j]
    ensures var f := [head] + g;
      forall j :: 2 <= j < |parts| ==> f[j] == " " + parts[j]
  {
    var f := [head] + g;
    forall j | 2 <= j < |parts| ensures f[j] == " " + parts[j] {
      assert f[j] == g[j - 1];
      assert parts[1..][j - 1] == parts[j];
    }
  }

  /**
   * The column list of the INSERT: when no column name holds a `,`, it splits on `,` back into
   * the column names in the given order, each after the first behind one space.
   */
  lemma ColumnListLayout(columns: seq<string>)
    requires columns != []
    requires forall j :: 0 <= j < |columns| ==> Lacks(columns[j], ',')
    ensures var f := Split(Join(columns, ", "), ',');
      && |f| == |columns|
      && f[0] == columns[0]
      && forall j :: 1 <= j < |columns| ==> f[j] == " " + columns[j]
  {
    SplitCommaJoin("", columns);
    assert "" + Join(columns, ", ") == Join(columns, ", ");
    assert "" + columns[0] == columns[0];
  }

  /** The placeholder list holds exactly `n` question marks. */
  lemma {:induction false} PlaceholderCount(n: nat)
    ensures Count(Join(Placeholders(n), ", "), '?') == n
  {
    if n > 1 {
      PlaceholderCount(n - 1);
      assert Placeholders(n)[1..] == Placeholders(n - 1);
    }
  }

  lemma {:induction false} JoinCount(parts: seq<string>, sep: string, c: char)
    requires Lacks(sep, c)
    requires forall j :: 0 <= j < |parts| ==> Lacks(parts[j], c)
    ensures Count(Join(parts, sep), c) == 0
  {
    if |parts| > 1 {
      JoinCount(parts[1..], sep, c);
      assert c !in multiset(parts[0]) && c !in multiset(sep);
    } else if |parts| == 1 {
      assert c !in multiset(parts[0]);
    }
  }

  lemma CountConcat(a: string, b: string, c: char)
    ensures Count(a + b, c) == Count(a, c) + Count(b, c)
  {
    assert multiset(a + b) == multiset(a) + multiset(b);
  }

  /** The count over seven consecutive pieces, piece by piece. */
  lemma CountPieces(a: string, b: string, c: string, d: string, e: string, f: string, g: string, ch: char)
    ensures Count(a + b + c + d + e + f + g, ch)
         == Count(a, ch) + Count(b, ch) + Count(c, ch) + Count(d, ch) + Count(e, ch) + Count(f, ch) + Count(g, ch)
  {
    CountConcat(a + b + c + d + e + f, g, ch);
    CountConcat(a + b + c + d + e, f, ch);
    CountConcat(a + b + c + d, e, ch);
    CountConcat(a + b + c, d, ch);
    CountConcat(a + b, c, ch);
    CountConcat(a, b, ch);
  }

  /** A text without `c` counts no `c`. */
  lemma NotInCount(s: string, c: char)
    requires c !in s
    ensures Count(s, c) == 0
  {
    assert c !in multiset(s);
  }

  /** Pieces around the placeholder list that hold no `ch` add nothing to its count. */
  lemma CountAroundMarks(k1: string, table: string, k2: string, cols: string, k3: string, marks: string, k4: string, ch: char)
    requires ch !in k1 && ch !in k2 && ch !in k3 && ch !in k4
    requires Count(table, ch) == 0 && Count(cols, ch) == 0
    ensures Count(k1 + table + k2 + cols + k3 + marks + k4, ch) == Count(marks, ch)
  {
    NotInCount(k1, ch);
    NotInCount(k2, ch);
    NotInCount(k3, ch);
    NotInCount(k4, ch);
    CountPieces(k1, table, k2, cols, k3, marks, k4, ch);
  }

  /** The keywords around the table, column and placeholder lists add no `?`. */
  lemma InsertTextCount(table: string, cols: string, marks: string)
    requires Lacks(table, '?') && Count(cols, '?') == 0
    ensures Count("INSERT INTO " + table + " (" + cols + ") VALUES (" + marks + ")", '?') == Count(marks, '?')
  {
    InsertKeywordsHaveNoMark();
    NotInCount(table, '?');
    CountAroundMarks("INSERT INTO ", table, " (", cols, ") VALUES (", marks, ")", '?');
  }

  lemma InsertKeywordsHaveNoMark()
    ensures '?' !in "INSERT INTO " && '?' !in " (" && '?' !in ") VALUES (" && '?' !in ")"
  {
  }

  /** A prepared statement and the values bound to its parameter positions. */
  class Statement {
    const sql: string
    var bound: map<int, Value>

    /** `ibm_db.prepare`: nothing is bound yet. */
    constructor Prepare(sql: string)
      ensures this.sql == sql && bound == map[]
    {
      this.sql := sql;
      bound := map[];
    }

    /** `ibm_db.bind_param`: binds `value` to the 1-based `position`. */
    method BindParam(position: int, value: Value)
      modifies this
      ensures bound == old(bound)[position := value]
    {
      bound := bound[position := value];
    }
  }

  /**
   * `_insert_to_db` up to its execution: the INSERT text is prepared and `data[i]` is bound to
   * position `i + 1`, for every `i` in order, so positions 1..|data| are bound and no other.
   */
  method InsertToDb(table: string, columns: seq<string>, data: seq<Value>) returns (stmt: Statement)
    ensures fresh(stmt)
    ensures stmt.sql == InsertSql(table, columns, |data|)
    ensures forall p :: p in stmt.bound <==> 1 <= p <= |data|
    ensures forall i :: 0 <= i < |data| ==> stmt.bound[i + 1] == data[i]
  {
    stmt := new Statement.Prepare(InsertSql(table, columns, |data|));
    for i := 0 to |data|
      invariant forall p :: p in stmt.bound <==> 1 <= p <= i
      invariant forall j :: 0 <= j < i ==> stmt.bound[j + 1] == data[j]
    {
      stmt.BindParam(i + 1, data[i]);
    }
  }

  // ---------------------------------------------------------------------------------------
  // SELECT and row draining
  // ---------------------------------------------------------------------------------------

  /** The statement text of `_get_all_from_db`: the fixed `SELECT * FROM ` and then the table name. */
  function SelectAllSql(table: string): (r: string)
    ensures |r| == 14 + |table| && r[..14] == "SELECT * FROM " && r[14..] == table
  {
    "SELECT * FROM " + table
  }

  /** A result cursor: the results `fetch_assoc` has yet to hand out. */
  class Cursor {
    var pending: seq<Value>

    constructor (results: seq<Value>)
      ensures pending == results
    {
      pending := results;
    }

    /** `ibm_db.fetch_assoc`: the next result, or `False` once the cursor is exhausted. */
    method FetchAssoc() returns (row: Value)
      modifies this
      ensures old(pending) == [] ==> row == VBool(false) && pending == []
      ensures old(pending) != [] ==> row == old(pending)[0] && pending == old(pending)[1..]
    {
      if pending == [] {
        row := VBool(false);
      } else {
        row := pending[0];
        pending := pending[1..];
      }
    }
  }

  /** The results up to, and not including, the first falsy one. */
  function TakeWhileTruthy(results: seq<Value>): (kept: seq<Value>)
  {
    if results == [] || !Truthy(results[0]) then [] else [results[0]] + TakeWhileTruthy(results[1..])
  }

  /**
   * `TakeWhileTruthy` is the unique prefix made of truthy results that either is everything
   * or stops right before a falsy one.
   */
  lemma {:induction false} TakeWhileTruthyIsTruthyPrefix(results: seq<Value>, k: nat)
    requires k <= |results|
    requires forall i :: 0 <= i < k ==> Truthy(results[i])
    requires k == |results| || !Truthy(results[k])
    ensures TakeWhileTruthy(results) == results[..k]
  {
    if k > 0 {
      TakeWhileTruthyIsTruthyPrefix(results[1..], k - 1);
      assert [results[0]] + results[1..][..k - 1] == results[..k];
    }
  }

  /**
   * `_run_sql_query`: the statement is executed and rows are appended while the fetched row
   * is truthy, so the result is the fetched rows in order up to the first falsy one, and
   * nothing after it.
   */
  method RunSqlQuery(execute: string -> seq<Value>, sqlStmt: string) returns (result: seq<Value>)
    ensures var rows := execute(sqlStmt);
      && |result| <= |rows|
      && result == rows[..|result|]
      && (forall i :: 0 <= i < |result| ==> Truthy(result[i]))
      && (|result| < |rows| ==> !Truthy(rows[|result|]))
    ensures result == TakeWhileTruthy(execute(sqlStmt))
  {
    ghost var rows := execute(sqlStmt);
    var cursor := new Cursor(execute(sqlStmt));
    result := [];
    var row := cursor.FetchAssoc();
    ghost var k := 0;
    while Truthy(row)
      invariant 0 <= k <= |rows|
      invariant result == rows[..k]
      invariant forall i :: 0 <= i < k ==> Truthy(rows[i])
      invariant k < |rows| ==> row == rows[k] && cursor.pending == rows[k + 1..]
      invariant k == |rows| ==> row == VBool(false) && cursor.pending == []
      decreases |rows| - k
    {
      assert k < |rows| && rows[..k + 1] == rows[..k] + [rows[k]];
      assert rows[k + 1..] == [] || rows[k + 1..][1..] == rows[k + 2..];
      result := result + [row];
      row := cursor.FetchAssoc();
      k := k + 1;
    }
    TakeWhileTruthyIsTruthyPrefix(rows, k);
  }

  /** `_get_all_from_db`: the same draining loop over `SELECT * FROM <table>`. */
  method GetAllFromDb(execute: string -> seq<Value>, table: string) returns (result: seq<Value>)
    ensures result == TakeWhileTruthy(execute(SelectAllSql(table)))
    ensures forall i :: 0 <= i < |result| ==> Truthy(result[i])
  {
    result := RunSqlQuery(execute, SelectAllSql(table));
  }
}

=== FILE: python.dfy ===
/** The Python runtime values and exceptions the modelled functions pass around. */
module Python {

  /**
   * A dynamically typed Python value, restricted to what the modelled code sees:
   * `None`, booleans, numbers, strings, lists and string-keyed dictionaries.
   * This is also what `json.loads` returns and what the Db2 driver's `fetch_assoc` hands out.
   */
  datatype Value =
    | VNone
    | VBool(b: bool)
    | VNum(x: real)
    | VStr(s: string)
    | VList(items: seq<Value>)
    | VDict(entries: map<string, Value>)

  /** Python truthiness (`bool(v)`): None, False, zero and empty containers are falsy. */
  predicate Truthy(v: Value)
  {
    match v
    case VNone => false
    case VBool(b) => b
    case VNum(x) => x != 0.0
    case VStr(s) => s != []
    case VList(items) => items != []
    case VDict(entries) => entries != map[]
  }

  /** Python's `c not in s` for a one-character `c`. */
  predicate Lacks(s: string, c: char)
  {
    forall k :: 0 <= k < |s| ==> s[k] != c
  }

  /** Two texts without `c` joined still lack it. */
  lemma LacksConcat(a: string, b: string, c: char)
    requires Lacks(a, c) && Lacks(b, c)
    ensures Lacks(a + b, c)
  {
    forall k | 0 <= k < |a + b| ensures (a + b)[k] != c {
      if k >= |a| {
        assert (a + b)[k] == b[k - |a|];
      }
    }
  }

  /** `c not in s` read as a membership test gives the same fact. */
  lemma NotInLacks(s: string, c: char)
    requires c !in s
    ensures Lacks(s, c)
  {
  }

  /** Why a `ValueError` was raised. */
  datatype ValueReason =
    | ZeroComponent          // a date component equal to 0
    | NegativeComponent      // a date component below 1 (and not 0)
    | NoneInput              // a JSON text that is None
    | InvalidJson            // text that is still not JSON after repair
    | ZeroRate(code: string) // a EUR rate of zero used as a divisor
    | NotCrossPair           // a cross conversion asked to involve EUR

  /** The Python exception classes the modelled code raises. */
  datatype PyException =
    | TypeError
    | ValueError(reason: ValueReason)
    | KeyError
    | RuntimeError(cause: PyException)
    | ExchangeRateNotFoundError(rateDate: string, code: string)
}

=== FILE: transform.dfy ===
/**
 * Model of `app/etl/transform.py`: splitting the raw dump into lines, the lenient repair of
 * Python-flavoured JSON text, the per-item parse of a list of such texts, and the projection
 * of the rate table onto its `date`, `base` and `rates` columns.
 *
 * `json.loads` is the oracle `parse`: it maps a text to the decoded value, or to `None` when the
 * text is not JSON (where the source raises `json.JSONDecodeError`).
 */
module Transform {
  import opened Wrappers
  import opened Python

  // ---------------------------------------------------------------------------------------
  // Line splitting
  // ---------------------------------------------------------------------------------------

  /** The characters Python's `str.splitlines` breaks on. */
  predicate IsLineBreak(c: char)
  {
    c == '\n' || c == '\r' || c == '\U{0B}' || c == '\U{0C}' || c == '\U{1C}' || c == '\U{1D}'
    || c == '\U{1E}' || c == '\U{85}' || c == '\U{2028}' || c == '\U{2029}'
  }

  predicate NoLineBreak(s: string)
  {
    forall i :: 0 <= i < |s| ==> !IsLineBreak(s[i])
  }

  /** The index of the first line break of `s`, or `|s|` when there is none. */
  function LineEnd(s: string): (i: nat)
    ensures i <= |s|
    ensures NoLineBreak(s[..i])
    ensures i < |s| ==> IsLineBreak(s[i])
  {
    if s == [] || IsLineBreak(s[0]) then 0
    else
      var i := 1 + LineEnd(s[1..]);
      assert forall k :: 1 <= k < i ==> s[..i][k] == s[1..][..i - 1][k - 1];
      i
  }

  /** Where the text after the first line break starts: "\r\n" is one break of two characters. */
  function NextLineStart(s: string): (j: nat)
    requires LineEnd(s) < |s|
    ensures LineEnd(s) < j <= |s|
  {
    var i := LineEnd(s);
    if s[i] == '\r' && i + 1 < |s| && s[i + 1] == '\n' then i + 2 else i + 1
  }

  /**
   * Python's `str.splitlines()`: the text between line breaks, where "\r\n" counts as one
   * break and a final break does not start an extra empty line.
   */
  function SplitLines(s: string): (lines: seq<string>)
    ensures lines == [] <==> s == []
    ensures s != [] && NoLineBreak(s) ==> lines == [s]
    decreases |s|
  {
    if s == [] then []
    else
      var i := LineEnd(s);
      if i == |s| then [s]
      else [s[..i]] + SplitLines(s[NextLineStart(s)..])
  }

  /** No line produced by `SplitLines` contains a line-break character. */
  lemma {:induction false} SplitLinesHaveNoBreaks(s: string)
    ensures forall k :: 0 <= k < |SplitLines(s)| ==> NoLineBreak(SplitLines(s)[k])
    decreases |s|
  {
    if s != [] {
      var i := LineEnd(s);
      if i < |s| {
        var next := NextLineStart(s);
        SplitLinesHaveNoBreaks(s[next..]);
        NoBreaksPrepend(s[..i], SplitLines(s[next..]));
      }
    }
  }

  lemma NoBreaksPrepend(first: string, rest: seq<string>)
    requires NoLineBreak(first)
    requires forall k :: 0 <= k < |rest| ==> NoLineBreak(rest[k])
    ensures forall k :: 0 <= k < |[first] + rest| ==> NoLineBreak(([first] + rest)[k])
  {
    var lines := [first] + rest;
    forall k | 0 <= k < |lines| ensures NoLineBreak(lines[k]) {
      if k > 0 {
        assert lines[k] == rest[k - 1];
      }
    }
  }

  /** Lines written one after the other, each followed by "\n". */
  function Terminated(lines: seq<string>): (s: string)
  {
    if lines == [] then "" else lines[0] + "\n" + Terminated(lines[1..])
  }

  lemma {:induction false} LineEndAtBreak(line: string, rest: string)
    requires NoLineBreak(line)
    requires rest != [] && IsLineBreak(rest[0])
    ensures LineEnd(line + rest) == |line|
  {
    if line != [] {
      assert (line + rest)[1..] == line[1..] + rest;
      LineEndAtBreak(line[1..], rest);
    }
  }

  /**
   * A break-free line followed by any one-character break other than "\r" is split off as the
   * first line.
   */
  lemma SplitFirstLine(line: string, brk: char, rest: string)
    requires NoLineBreak(line) && IsLineBreak(brk) && brk != '\r'
    ensures SplitLines(line + [brk] + rest) == [line] + SplitLines(rest)
  {
    var s := line + [brk] + rest;
    LineEndAtBreak(line, [brk] + rest);
    assert s == line + ([brk] + rest);
    var i := |line|;
    assert s[i] == brk;
    assert s[..i] == line;
    assert s[i + 1..] == rest;
  }

  /** A break-free line followed by "\r\n" is split off as the first line: "\r\n" is one break. */
  lemma SplitFirstLineCrLf(line: string, rest: string)
    requires NoLineBreak(line)
    ensures SplitLines(line + "\r\n" + rest) == [line] + SplitLines(rest)
  {
    var s := line + "\r\n" + rest;
    LineEndAtBreak(line, "\r\n" + rest);
    assert s == line + ("\r\n" + rest);
    var i := |line|;
    assert s[i] == '\r' && s[i + 1] == '\n';
    assert s[..i] == line;
    assert s[i + 2..] == rest;
  }

  /** A "\r" not followed by "\n" is a break on its own. */
  lemma SplitFirstLineCr(line: string, rest: string)
    requires NoLineBreak(line)
    requires rest == [] || rest[0] != '\n'
    ensures SplitLines(line + "\r" + rest) == [line] + SplitLines(rest)
  {
    var s := line + "\r" + rest;
    LineEndAtBreak(line, "\r" + rest);
    assert s == line + ("\r" + rest);
    var i := |line|;
    assert s[i] == '\r';
    if i + 1 < |s| {
      assert s[i + 1] == rest[0];
    }
    assert NextLineStart(s) == i + 1;
    assert s[..i] == line;
    assert s[i + 1..] == rest;
  }

  /** Splitting undoes writing break-free lines out one per "\n"-terminated line. */
  lemma {:induction false} SplitTerminatedRoundTrip(lines: seq<string>)
    requires forall k :: 0 <= k < |lines| ==> NoLineBreak(lines[k])
    ensures SplitLines(Terminated(lines)) == lines
  {
    if lines != [] {
      SplitFirstLine(lines[0], '\n', Terminated(lines[1..]));
      SplitTerminatedRoundTrip(lines[1..]);
      assert [lines[0]] + lines[1..] == lines;
    }
  }

  /**
   * `_split_string_into_lines`: a string is split into its lines; anything else (None
   * included) raises a `TypeError` that the catch-all handler re-raises as `RuntimeError`.
   */
  function SplitStringIntoLines(historicalData: Value): (r: Result<seq<string>, PyException>)
    ensures r.Failure? <==> !historicalData.VStr?
    ensures r.Failure? ==> r.error == RuntimeError(TypeError)
    ensures r.Success? ==> forall k :: 0 <= k < |r.value| ==> NoLineBreak(r.value[k])
    ensures historicalData.VStr? ==> r == Success(SplitLines(historicalData.s))
  {
    match historicalData
    case VStr(s) =>
      SplitLinesHaveNoBreaks(s);
      Success(SplitLines(s))
    case _ => Failure(RuntimeError(TypeError))
  }

  // ---------------------------------------------------------------------------------------
  // Lenient JSON repair
  // ---------------------------------------------------------------------------------------

  /** The word `True` starts at position `i` of `s`. */
  predicate TrueAt(s: string, i: nat)
  {
    i + 4 <= |s| && s[i] == 'T' && s[i + 1] == 'r' && s[i + 2] == 'u' && s[i + 3] == 'e'
  }

  predicate NoTrue(s: string)
  {
    forall i: nat | i < |s| :: !TrueAt(s, i)
  }

  /** `s.replace("'", '"')`: every single quote becomes a double quote. */
  function ReplaceQuotes(s: string): (r: string)
    ensures |r| == |s|
    ensures forall i :: 0 <= i < |s| ==> r[i] == if s[i] == '\'' then '"' else s[i]
  {
    if s == [] then []
    else [if s[0] == '\'' then '"' else s[0]] + ReplaceQuotes(s[1..])
  }

  /**
   * `s.replace("True", "true")`: a left-to-right scan replacing each non-overlapping `True`.
   * Only the capital `T` of a replaced word changes.
   */
  function ReplaceTrue(s: string): (r: string)
    ensures |r| == |s|
    ensures forall i :: 0 <= i < |s| ==> r[i] == if TrueAt(s, i) then 't' else s[i]
    decreases |s|
  {
    if TrueAt(s, 0) then
      var t := s[4..];
      assert forall i :: 4 <= i < |s| ==> (TrueAt(s, i) <==> TrueAt(t, i - 4)) && s[i] == t[i - 4];
      "true" + ReplaceTrue(t)
    else if s == [] then []
    else
      var t := s[1..];
      assert forall i :: 1 <= i < |s| ==> (TrueAt(s, i) <==> TrueAt(t, i - 1)) && s[i] == t[i - 1];
      [s[0]] + ReplaceTrue(t)
  }

  /** After the replacement no `True` is left, not even one formed across a replaced word. */
  lemma {:induction false} ReplaceTrueLeavesNoTrue(s: string)
    ensures NoTrue(ReplaceTrue(s))
    decreases |s|
  {
    var r := ReplaceTrue(s);
    if TrueAt(s, 0) {
      var t := ReplaceTrue(s[4..]);
      ReplaceTrueLeavesNoTrue(s[4..]);
      assert r == "true" + t;
      forall i: nat | i < |r| ensures !TrueAt(r, i) {
        if i >= 4 {
          assert !TrueAt(t, i - 4);
        }
      }
    } else if s != [] {
      var t := ReplaceTrue(s[1..]);
      ReplaceTrueLeavesNoTrue(s[1..]);
      assert r == [s[0]] + t;
      forall i: nat | i < |r| ensures !TrueAt(r, i) {
        if i >= 1 {
          assert !TrueAt(t, i - 1);
        }
      }
    }
  }

  /** Text without `True` is left as it is. */
  lemma {:induction false} ReplaceTrueIdentity(s: string)
    requires NoTrue(s)
    ensures ReplaceTrue(s) == s
    decreases |s|
  {
    if s != [] {
      assert !TrueAt(s, 0);
      assert NoTrue(s[1..]) by {
        forall i: nat ensures !TrueAt(s[1..], i) {
          if TrueAt(s[1..], i) { assert TrueAt(s, i + 1); }
        }
      }
      ReplaceTrueIdentity(s[1..]);
    }
  }

  /** The repair of `_parse_and_fix_json_string`: quotes first, then `True`. */
  function Repair(s: string): (r: string)
    ensures |r| == |s|
    ensures Lacks(r, '\'') && NoTrue(r)
    ensures forall i :: 0 <= i < |s| ==> r[i] == if TrueAt(s, i) then 't' else if s[i] == '\'' then '"' else s[i]
  {
    assert forall i :: 0 <= i < |s| ==> (TrueAt(ReplaceQuotes(s), i) <==> TrueAt(s, i));
    ReplaceTrueLeavesNoTrue(ReplaceQuotes(s));
    ReplaceTrue(ReplaceQuotes(s))
  }

  /** Repairing an already repaired text changes nothing. */
  lemma RepairIdempotent(s: string)
    ensures Repair(Repair(s)) == Repair(s)
  {
    var r := Repair(s);
    assert ReplaceQuotes(r) == r;
    ReplaceTrueIdentity(r);
  }

  /** Text without a single quote is left as it is. */
  lemma ReplaceQuotesIdentity(s: string)
    requires Lacks(s, '\'')
    ensures ReplaceQuotes(s) == s
  {
  }

  /** The quote replacement works piece by piece. */
  lemma {:induction false} ReplaceQuotesConcat(a: string, b: string)
    ensures ReplaceQuotes(a + b) == ReplaceQuotes(a) + ReplaceQuotes(b)
  {
    if a != [] {
      assert (a + b)[1..] == a[1..] + b;
      ReplaceQuotesConcat(a[1..], b);
    }
  }

  /** A `True` preceded only by text without a capital `T` is the first one replaced. */
  lemma {:induction false} ReplaceFirstTrue(before: string, after: string)
    requires forall i :: 0 <= i < |before| ==> before[i] != 'T'
    ensures ReplaceTrue(before + "True" + after) == before + "true" + ReplaceTrue(after)
  {
    var s := before + "True" + after;
    if before == [] {
      assert s == "True" + after;
      assert TrueAt(s, 0);
      assert s[4..] == after;
    } else {
      assert !TrueAt(s, 0);
      assert s[1..] == before[1..] + "True" + after;
      ReplaceFirstTrue(before[1..], after);
    }
  }

  /** The quote replacement of five consecutive pieces, piece by piece. */
  lemma ReplaceQuotesPieces(a: string, b: string, c: string, d: string, e: string)
    ensures ReplaceQuotes(a + b + c + d + e)
         == ReplaceQuotes(a) + ReplaceQuotes(b) + ReplaceQuotes(c) + ReplaceQuotes(d) + ReplaceQuotes(e)
  {
    ReplaceQuotesConcat(a + b + c + d, e);
    ReplaceQuotesConcat(a + b + c, d);
    ReplaceQuotesConcat(a + b, c);
    ReplaceQuotesConcat(a, b);
  }

  /** The text of a one-entry dict `{<q>key<q>: value}`, its key quoted by `q`. */
  function EntryText(q: char, key: string, value: string): (r: string)
    ensures |r| == |key| + |value| + 6
  {
    "{" + [q] + key + [q] + ": " + value + "}"
  }

  /** The quote step on `{'key': value}`. */
  lemma QuotesOneEntry(key: string, value: string)
    requires Lacks(key, '\'') && Lacks(value, '\'')
    ensures ReplaceQuotes(EntryText('\'', key, value)) == EntryText('"', key, value)
  {
    var head := "{" + ['\''] + key;
    ReplaceQuotesPieces(head, ['\''], ": ", value, "}");
    ReplaceQuotesPieces("{", ['\''], key, [], []);
    ReplaceQuotesIdentity(key);
    ReplaceQuotesIdentity(value);
  }

  /** The `True` step on `{"key": True}`. */
  lemma TrueOneEntry(key: string)
    requires Lacks(key, 'T')
    ensures ReplaceTrue(EntryText('"', key, "True")) == EntryText('"', key, "true")
  {
    var before := "{" + ['"'] + key + ['"'] + ": ";
    assert Lacks("{" + ['"'], 'T') && Lacks(['"'] + ": ", 'T');
    LacksConcat("{" + ['"'], key, 'T');
    LacksConcat("{" + ['"'] + key, ['"'] + ": ", 'T');
    assert before == "{" + ['"'] + key + (['"'] + ": ");
    ReplaceFirstTrue(before, "}");
    assert ReplaceTrue("}") == "}";
  }

  /**
   * A one-entry Python dict with a `True` value, `{'key': True}`, is repaired to the JSON text
   * `{"key": true}` when the key holds neither a single quote nor a capital `T`.
   */
  lemma RepairOneEntry(key: string)
    requires Lacks(key, '\'') && Lacks(key, 'T')
    ensures Repair(EntryText('\'', key, "True")) == EntryText('"', key, "true")
  {
    QuotesOneEntry(key, "True");
    TrueOneEntry(key);
  }

  // ---------------------------------------------------------------------------------------
  // Parsing one text and a list of texts
  // ---------------------------------------------------------------------------------------

  /**
   * `_parse_and_fix_json_string`: a string is repaired and parsed, a parse failure raising
   * `ValueError`. The checks for None (a `ValueError`) and for a non-string (a `TypeError`)
   * raise inside the `try`, whose first handler only catches `JSONDecodeError`, so both
   * reach the catch-all handler and come out as `RuntimeError`.
   */
  function ParseAndFix(parse: string -> Option<Value>, unformatted: Value): (r: Result<Value, PyException>)
    ensures unformatted == VNone ==> r == Failure(RuntimeError(ValueError(NoneInput)))
    ensures !unformatted.VStr? && unformatted != VNone ==> r == Failure(RuntimeError(TypeError))
    ensures unformatted.VStr? ==>
      && (r.Success? <==> parse(Repair(unformatted.s)).Some?)
      && (r.Failure? ==> r.error == ValueError(InvalidJson))
      && (r.Success? ==> parse(Repair(unformatted.s)) == Some(r.value))
  {
    match unformatted
    case VNone => Failure(RuntimeError(ValueError(NoneInput)))
    case VStr(s) =>
      (match parse(Repair(s))
       case None => Failure(ValueError(InvalidJson))
       case Some(v) => Success(v))
    case _ => Failure(RuntimeError(TypeError))
  }

  /** `ParseAndFix` with the parser fixed, as the list loop calls it. */
  function ParseAndFixWith(parse: string -> Option<Value>): (item: Value -> Result<Value, PyException>)
  {
    x => ParseAndFix(parse, x)
  }

  /** The exceptions the list loop catches: `ValueError` and `TypeError`. */
  predicate Caught(e: PyException)
  {
    e.ValueError? || e.TypeError?
  }

  /** What one item contributes to the list: its parsed value, or None for a caught error. */
  function ItemOutcome(r: Result<Value, PyException>): (v: Value)
  {
    match r
    case Success(v) => v
    case Failure(_) => VNone
  }

  /**
   * The list loop of `_reformat_list_of_json_strings`, item by item from the left: each item's
   * value is appended, a caught error appends None, and any other exception ends the loop.
   */
  function ReformatItems(item: Value -> Result<Value, PyException>, items: seq<Value>): (out: Result<seq<Value>, PyException>)
  {
    if items == [] then Success([])
    else
      match ReformatItems(item, items[..|items| - 1])
      case Failure(e) => Failure(e)
      case Success(done) =>
        match item(items[|items| - 1])
        case Success(v) => Success(done + [v])
        case Failure(e) => if Caught(e) then Success(done + [VNone]) else Failure(e)
  }

  /** An item whose exception escapes the loop. */
  predicate Escapes(r: Result<Value, PyException>)
  {
    r.Failure? && !Caught(r.error)
  }

  /**
   * The loop succeeds exactly when no item's exception escapes; then it keeps the length and
   * the order, with None where an item was caught. Otherwise the first escaping exception
   * is the result.
   */
  lemma {:induction false} ReformatItemsShape(item: Value -> Result<Value, PyException>, items: seq<Value>)
    ensures ReformatItems(item, items).Success? <==> forall i :: 0 <= i < |items| ==> !Escapes(item(items[i]))
    ensures ReformatItems(item, items).Success? ==>
      var out := ReformatItems(item, items).value;
      |out| == |items| && forall i :: 0 <= i < |items| ==> out[i] == ItemOutcome(item(items[i]))
    ensures ReformatItems(item, items).Failure? ==>
      exists i :: 0 <= i < |items| && Escapes(item(items[i]))
        && ReformatItems(item, items).error == item(items[i]).error
        && forall j :: 0 <= j < i ==> !Escapes(item(items[j]))
  {
    if items != [] {
      var n := |items| - 1;
      var init := items[..n];
      ReformatItemsShape(item, init);
      assert forall i :: 0 <= i < n ==> init[i] == items[i];
    }
  }

  /** Once a prefix of the list has failed, the whole loop fails with the same exception. */
  lemma {:induction false} ReformatFailureStops(item: Value -> Result<Value, PyException>, items: seq<Value>, k: nat)
    requires k <= |items|
    requires ReformatItems(item, items[..k]).Failure?
    ensures ReformatItems(item, items) == ReformatItems(item, items[..k])
    decreases |items| - k
  {
    if k < |items| {
      assert items[..k + 1][..k] == items[..k];
      ReformatFailureStops(item, items, k + 1);
    } else {
      assert items[..k] == items;
    }
  }

  /** One more item of the loop, from the outcome of the items before it. */
  lemma ReformatStep(item: Value -> Result<Value, PyException>, items: seq<Value>, i: nat, done: seq<Value>)
    requires i < |items| && ReformatItems(item, items[..i]) == Success(done)
    ensures item(items[i]).Success? ==> ReformatItems(item, items[..i + 1]) == Success(done + [item(items[i]).value])
    ensures item(items[i]).Failure? && Caught(item(items[i]).error) ==>
      ReformatItems(item, items[..i + 1]) == Success(done + [VNone])
    ensures Escapes(item(items[i])) ==> ReformatItems(item, items[..i + 1]) == Failure(item(items[i]).error)
  {
    assert items[..i + 1][..i] == items[..i];
  }

  /**
   * `_reformat_list_of_json_strings`: anything but a list raises `TypeError`; a list is walked
   * left to right, appending each parsed value, or None where parsing raised `ValueError` or
   * `TypeError`.
   */
  method ReformatListOfJsonStrings(parse: string -> Option<Value>, unformatted: Value)
    returns (r: Result<seq<Value>, PyException>)
    ensures !unformatted.VList? ==> r == Failure(TypeError)
    ensures unformatted.VList? ==> r == ReformatItems(ParseAndFixWith(parse), unformatted.items)
  {
    if !unformatted.VList? {
      return Failure(TypeError);
    }
    var items := unformatted.items;
    var item := ParseAndFixWith(parse);
    var jsonData: seq<Value> := [];
    for i := 0 to |items|
      invariant ReformatItems(item, items[..i]) == Success(jsonData)
    {
      var parsed := ParseAndFix(parse, items[i]);
      assert parsed == item(items[i]);
      ReformatStep(item, items, i, jsonData);
      if parsed.Success? {
        jsonData := jsonData + [parsed.value];
      } else if Caught(parsed.error) {
        jsonData := jsonData + [VNone];
      } else {
        ReformatFailureStops(item, items, i + 1);
        return Failure(parsed.error);
      }
    }
    assert items[..|items|] == items;
    r := Success(jsonData);
  }

  /**
   * As written, a None or non-string item does not become None in the output: the parse
   * wraps its error into `RuntimeError`, which the loop does not catch, so the whole call fails.
   */
  lemma NonStringItemAbortsList(parse: string -> Option<Value>, items: seq<Value>, i: nat)
    requires i < |items| && !items[i].VStr?
    ensures ReformatItems(ParseAndFixWith(parse), items).Failure?
    ensures ReformatItems(ParseAndFixWith(parse), items).error.RuntimeError?
  {
    ReformatItemsShape(ParseAndFixWith(parse), items);
    assert Escapes(ParseAndFixWith(parse)(items[i]));
  }

  /**
   * The parse as its documentation describes it: None raises `ValueError` and a non-string
   * raises `TypeError`, both of which the list loop catches.
   */
  function ParseAndFixIntended(parse: string -> Option<Value>, unformatted: Value): (r: Result<Value, PyException>)
    ensures r.Failure? ==> Caught(r.error)
    ensures unformatted.VStr? ==> r == ParseAndFix(parse, unformatted)
  {
    match unformatted
    case VNone => Failure(ValueError(NoneInput))
    case VStr(_) => ParseAndFix(parse, unformatted)
    case _ => Failure(TypeError)
  }

  /** With the intended parse the list loop never fails: one output per item, None where it failed. */
  lemma ReformatIntendedTotal(parse: string -> Option<Value>, items: seq<Value>)
    ensures var item := x => ParseAndFixIntended(parse, x);
      var r := ReformatItems(item, items);
      && r.Success?
      && |r.value| == |items|
      && forall i :: 0 <= i < |items| ==>
           r.value[i] == (if items[i].VStr? && parse(Repair(items[i].s)).Some? then parse(Repair(items[i].s)).value else VNone)
  {
    var item := x => ParseAndFixIntended(parse, x);
    ReformatItemsShape(item, items);
  }

  // ---------------------------------------------------------------------------------------
  // Column projection
  // ---------------------------------------------------------------------------------------

  /** A table: its column names in order and its rows as column-to-value maps. */
  datatype Frame = Frame(columns: seq<string>, records: seq<map<string, Value>>)

  const Required: seq<string> := ["date", "base", "rates"]

  /** A row restricted to the required columns. */
  function ProjectRecord(rec: map<string, Value>): (projected: map<string, Value>)
  {
    map k | k in rec && k in Required :: rec[k]
  }

  /**
   * `_prepare_data_columns`: something that is not a table (None included) raises a
   * `TypeError` that comes out as `RuntimeError`; a table missing any of `date`, `base`,
   * `rates` raises `KeyError`; otherwise exactly those three columns, in that order, are kept
   * for every row.
   */
  function PrepareDataColumns(frame: Option<Frame>): (r: Result<Frame, PyException>)
    ensures frame.None? ==> r == Failure(RuntimeError(TypeError))
    ensures frame.Some? ==> (r == Failure(KeyError) <==> exists c :: c in Required && c !in frame.value.columns)
    ensures frame.Some? ==> (r.Success? <==> forall c :: c in Required ==> c in frame.value.columns)
    ensures frame.Some? && r.Success? ==>
      && r.value.columns == Required
      && |r.value.records| == |frame.value.records|
      && forall i :: 0 <= i < |r.value.records| ==>
           (forall k :: k in r.value.records[i] <==> k in Required && k in frame.value.records[i])
           && (forall k :: k in r.value.records[i] ==> r.value.records[i][k] == frame.value.records[i][k])
  {
    match frame
    case None => Failure(RuntimeError(TypeError))
    case Some(f) =>
      if forall c :: c in Required ==> c in f.columns then
        Success(Frame(Required, seq(|f.records|, i requires 0 <= i < |f.records| => ProjectRecord(f.records[i]))))
      else
        Failure(KeyError)
  }

  /** Preparing an already prepared table changes nothing. */
  lemma PrepareDataColumnsIdempotent(frame: Frame)
    requires PrepareDataColumns(Some(frame)).Success?
    ensures PrepareDataColumns(Some(PrepareDataColumns(Some(frame)).value)) == PrepareDataColumns(Some(frame))
  {
    var p := PrepareDataColumns(Some(frame)).value;
    assert forall c :: c in Required ==> c in p.columns;
    var q := PrepareDataColumns(Some(p)).value;
    forall i | 0 <= i < |p.records| ensures q.records[i] == p.records[i] {
      assert q.records[i].Keys == p.records[i].Keys;
    }
    assert q.records == p.records;
  }
}

=== FILE: wrappers.dfy ===
/** The optional-value and success-or-exception wrappers shared by every module of the model. */
module Wrappers {

  /** A value that may be absent (Python's `None`). */
  datatype Option<+T> = None | Some(value: T)

  /** Either a value or the exception that was raised instead. */
  datatype Result<+T, +E> = Success(value: T) | Failure(error: E)
}
